=== FILE: README.md ===
# Cognito admin console, modelled in Dafny

This project models the logic of a small admin console for an AWS Cognito
user pool. The console has two halves:

- a React front end (`src/`);
- an AWS Lambda HTTP handler (`lambda/index.js`).

Both halves create, recreate and delete users. They set passwords, switch
per-user TOTP MFA, and read or write the pool's MFA mode. A DynamoDB table
of admin records gates the login.

The model replaces the provider with an immutable `Provider.Pool`. The pool
holds:

- a map from username to account (attributes, enabled flag, status, TOTP and
  SMS settings, password and its temporary flag);
- the pool MFA mode (`OFF`, `OPTIONAL` or `ON`);
- the pool's software-token flag.

Each provider call is a function that either succeeds with a new pool or
fails and leaves the pool unchanged. It fails on a natural condition: an
absent user, a taken username, a wrong password, or an answer no new
password is owed to. It also fails when an oracle `Env` rejects that exact
call. The `Env` oracle can also fix which challenge a login answers, how
many pool reads still see the old mode after a write, and which numbered
reads after a write fail, with what message. The provider's
behaviour is therefore an input, not a guess.

Every console operation returns a `Run`: its result, the pool afterwards,
and the trace of provider calls in order. The contracts can then state
call order, which calls are skipped after a failure, and what the pool looks
like at the end.

Modules, one per source file or concern:

- `Wrappers`: `Option` and `Result`.
- `Text`: JavaScript string behaviour:
  - ASCII `toLowerCase`;
  - `includes`;
  - `trim()` emptiness;
  - `<` on strings.
- `Provider`: the abstract user pool and its calls.
- `Derivations`: pure helpers shared by both halves:
  - building and reading user attributes;
  - the list-filter choice;
  - the two MFA-status derivations.
- `ProfileStore`: the admin-record table as a map, or unreachable.
- `CognitoService`: the browser-side service, `src/cognitoService.js`.
- `LambdaHandler`: the Lambda router and its operations, `lambda/index.js`.
- `Directory`: the filter, count and sort pipeline of `src/AdminPage.js`.
- `AdminPage`: the admin page's handlers:
  - sort change and clearing the filters;
  - loading users;
  - the pool toggle;
  - the switch-to-OPTIONAL gate before a per-user MFA change.
- `CreateUserPage`: the four-step create-user wizard and its local create path.
- `App`: the shell, with its session window, logout, navigation and render choice.
- `AuthPage`: the login handler, over the local service and over the HTTP API.

Where the browser copy and the Lambda copy of an operation differ, both are
modelled. A lemma states how they relate (`...CopiesAgree`).

Three places where the code and the console's design description disagree.
The model follows the code in each:

- The Lambda `createUser` makes no pool-mode write (lambda/index.js:137-155).
- The Lambda `getMFAStatus` ignores the delivery media of legacy MFA
  options (lambda/index.js:304-326).
- The admin page writes the pool mode, and polls it after a write, through
  the HTTP API even when the browser service is used for everything else
  (src/AdminPage.js:357, 364, 538). Only `refreshData` reads it through the
  chosen service (src/AdminPage.js:176).

## Model

| member | source | states |
|---|---|---|
| `Provider.ParseModeName` | lambda/index.js:342-351 | the pool-mode names 'OFF', 'OPTIONAL', 'ON' sent to `setUserPoolMfaConfig` read back to the mode they name |
| `Provider.FindAttr` | src/cognitoService.js:570-572 | `find(a => a.Name === name)?.Value`: nothing exactly when no attribute has that name, otherwise the value of the first attribute with that name |
| `Provider.AttrOr` | src/cognitoService.js:570-572 | `find(...)?.Value`, or else the fallback: the first value stored under that name when it is non-empty, otherwise the fallback |
| `Provider.GetUserAt` | src/cognitoService.js:565-568 | `adminGetUser` answers the stored account exactly when the user exists and the call is not rejected |
| `Provider.CreateUserAt` | src/cognitoService.js:613-619 | `adminCreateUser` succeeds exactly on a free username and adds a new enabled account that must change its temporary password |
| `Provider.DeleteUserAt` | src/cognitoService.js:254-261 | `adminDeleteUser` succeeds exactly on an existing user and removes only that username |
| `Provider.SetEnabledAt` | src/cognitoService.js:514-530 | `adminEnableUser` / `adminDisableUser` succeed exactly on an existing user when the call is not rejected, and then change only that account's enabled flag |
| `Provider.ResetUserPasswordAt` | src/cognitoService.js:55-59 | `adminResetUserPassword` succeeds exactly on an existing user and marks it reset-required |
| `Provider.SetUserPasswordAt` | src/cognitoService.js:104-110 | `adminSetUserPassword` on an existing user stores the password, temporary and FORCE_CHANGE_PASSWORD unless permanent, CONFIRMED when permanent; every other account and the pool mode are kept |
| `Provider.InitiateAuthAt` | src/cognitoService.js:73-84 | a login succeeds exactly on an existing, enabled user with the stored password and no rejection; a disabled user is refused with 'User is disabled.'; an injected answer is returned as is, otherwise NEW_PASSWORD_REQUIRED exactly when the password is temporary |
| `Provider.RespondNewPasswordAt` | src/cognitoService.js:84-97 | answering NEW_PASSWORD_REQUIRED succeeds only while the password is temporary, and the pool afterwards is the old one with that account's new password permanent and confirmed |
| `Provider.SetMfaPreferenceAt` | src/cognitoService.js:197-223 | `adminSetUserMFAPreference` overwrites only the settings it is given, for that user only, and never touches the pool mode |
| `Provider.DescribePoolAt` | src/cognitoService.js:225-236 | `describeUserPool` reports the pool's current mode unless rejected |
| `Provider.SetPoolMfaAt` | src/cognitoService.js:238-248 | `setUserPoolMfaConfig` sets exactly the mode and software-token flag given and keeps every account |
| `Provider.ListUsersAt` | src/cognitoService.js:32-48 | `listUsers` succeeds exactly when not rejected, and returns exactly the usernames that pass the email or username filter |
| `Text.LowerChar` | src/AdminPage.js:111 | `toLowerCase` on one character: a capital A-Z becomes the letter 32 code points later, everything else is kept |
| `Text.ToLower` | src/AdminPage.js:111-118 | `toLowerCase` keeps the length and lowers each character in place |
| `Text.ToLowerIdempotent` | src/AdminPage.js:111-118 | lowering an already lowered string changes nothing, so lowering the term and the fields meet on the same text |
| `Text.ContainsAt` | src/AdminPage.js:116-118 | the recursive `includes` holds exactly when the needle occurs at some offset of the text |
| `Text.MissingFirstChar` | src/AdminPage.js:116-118 | a text lacking the needle's first character does not include the needle |
| `Text.LexLeTotal` | src/AdminPage.js:152-166 | JavaScript string order compares any two email keys |
| `Text.LexLeTransitive` | src/AdminPage.js:152-166 | JavaScript string order is transitive |
| `Text.LexLeAntisymmetric` | src/AdminPage.js:152-166 | two email keys ordered both ways are equal |
| `Text.TrimStart` | src/AdminPage.js:110 | `trimStart` drops exactly a leading run of white space: the result is a suffix that starts with a non-space or is empty |
| `Text.TrimEnd` | src/AdminPage.js:110 | `trimEnd` drops exactly a trailing run of white space: the result is a prefix that ends with a non-space or is empty |
| `Text.BlankIsTrimEmpty` | src/AdminPage.js:110 | `IsBlank` (every character white space) holds exactly when `trim()` gives the empty string |
| `Derivations.NewUserAttributes` | src/cognitoService.js:605-611 | the attribute list is exactly email, email_verified 'true', then `name` when the name is non-empty, then `profile` when the company is non-empty, in that order |
| `Derivations.ProfileOf` | src/cognitoService.js:570-572 | the email is the stored non-empty email, else the username; the name and company are the first values under `name` and `profile`, else empty |
| `Derivations.ProfileOfNewAttributes` | src/cognitoService.js:570-598 | reading back freshly built attributes gives the email (or the username when the email is empty), the name and the company |
| `Derivations.ProfileStable` | src/cognitoService.js:570-598 | rebuilding attributes from what was read and reading them again gives the same profile, so a second recreate keeps the identity |
| `Derivations.ListFilterFor` | src/cognitoService.js:32-44 | no filter for an absent or empty term; otherwise the term itself, filtered by email exactly when it contains '@' |
| `Derivations.ListingBySearchTerm` | lambda/index.js:122-135 | a term with '@' lists exactly the users with that email; any other term lists at most the user with that username |
| `Derivations.ClientMfaStatus` | src/cognitoService.js:280-296 | the browser status: active on a TOTP or SMS setting or any legacy option; TOTP and SMS flags also raised by a matching option medium |
| `Derivations.LambdaMfaStatus` | lambda/index.js:314-321 | the Lambda status: active on a TOTP or SMS setting or any legacy option; flags from the settings list only |
| `Derivations.FlagImpliesActive` | src/cognitoService.js:280-296 | in both copies a raised TOTP or SMS flag implies the user is shown MFA-active |
| `Derivations.CopiesAgreeOnActive` | lambda/index.js:314-321 | the two copies agree on `mfaActive`, and every flag the Lambda raises the browser raises too |
| `Derivations.LegacyOptionWitness` | src/cognitoService.js:288-295 | an account with only a legacy SMS option is SMS-enabled in the browser copy and not in the Lambda copy |
| `Derivations.AccountMfaStatusReflectsSettings` | src/cognitoService.js:280-296 | an enabled TOTP or SMS setting shows as active with its flag; an account with neither setting and no options shows all false |
| `CognitoService.ListUsersOp` | src/cognitoService.js:32-48 | one `listUsers` call with limit 60 and the chosen filter; the pool is untouched; success exactly when not rejected, returning exactly the users that pass that filter |
| `CognitoService.SetupAndAnswer` | src/cognitoService.js:64-99 | set 'TempSetup123!' as temporary, log in with it, answer with the new password only on NEW_PASSWORD_REQUIRED; each provider failure stops the run with that error and the pool of that moment, and a successful answer leaves the provider's pool |
| `CognitoService.SetPermanentPassword` | src/cognitoService.js:50-102 | the reset and then the setup run: the result is the setup run's whatever the reset did, a failed set-password stops after two calls, and a run without the challenge ends still on the setup password |
| `CognitoService.SetPermanentPasswordCompletes` | src/cognitoService.js:84-97 | without an injected challenge, a successful run always answers the challenge and leaves the new password permanent |
| `CognitoService.SetPermanentPasswordNoChallenge` | src/cognitoService.js:84 | when the login asks for no new password, the run still reports success with the new password never set |
| `CognitoService.SetupAfterReset` | src/cognitoService.js:55-70 | the setup run after the reset has the same result and calls as on the pool before it, whether the reset succeeded or not |
| `CognitoService.SetPermanentPasswordSucceeds` | src/cognitoService.js:50-102 | for an existing enabled user with no injected challenge and no rejected set, login or answer, the run succeeds with the four calls and leaves only the new password, permanent and confirmed |
| `CognitoService.SetupIgnoresResetRejection` | src/cognitoService.js:55-62 | what follows the reset does not depend on whether the reset was rejected |
| `CognitoService.SetupIgnoresResetStatus` | src/cognitoService.js:55-70 | what follows the reset does not depend on the reset-required status the reset writes |
| `CognitoService.ResetOutcomeIrrelevant` | src/cognitoService.js:55-62 | a rejected reset is swallowed: the result and calls are the same as after a successful one |
| `CognitoService.ForcePasswordReset` | src/cognitoService.js:104-110 | one `adminSetUserPassword` with the given password or 'TempPass123!'; it succeeds exactly on an existing user, storing the password as temporary with FORCE_CHANGE_PASSWORD and leaving every other account; a failure changes nothing |
| `CognitoService.ForcePasswordResetForcesChange` | src/cognitoService.js:104-110 | after a forced reset, logging in with that password is answered NEW_PASSWORD_REQUIRED |
| `CognitoService.EnableTotpMfa` | src/cognitoService.js:197-208 | one preference call setting TOTP enabled and preferred; success exactly on an existing user when not rejected; SMS and every other account untouched |
| `CognitoService.DisableTotpMfa` | src/cognitoService.js:210-223 | one preference call disabling both TOTP and SMS; success exactly on an existing user when not rejected; that user only |
| `CognitoService.EnableThenStatusActive` | src/cognitoService.js:197-208 | after enabling, the user's derived status is active and TOTP-enabled |
| `CognitoService.DisableTotpMfaIdempotent` | src/cognitoService.js:210-223 | disabling twice leaves the pool as disabling once, and disabling an already disabled user changes nothing |
| `CognitoService.GetUserPoolMfaConfig` | src/cognitoService.js:225-236 | one `describeUserPool` call reporting the current mode, pool untouched; success exactly when not rejected |
| `CognitoService.UpdateUserPoolMfaConfig` | src/cognitoService.js:238-248 | one call that sets the requested mode and always turns software tokens on; success exactly when not rejected; accounts untouched |
| `CognitoService.ConfigReadAfterUpdate` | src/cognitoService.js:225-248 | reading the configuration after a successful update reports the mode just written, with the software token enabled |
| `CognitoService.DeleteUserOp` | src/cognitoService.js:254-261 | one delete call; it succeeds exactly on an existing user, leaving the pool without that user, and a failure changes nothing |
| `CognitoService.SetUserEnabled` | src/cognitoService.js:514-530 | one enable or disable call; success exactly on an existing user when not rejected, and the pool afterwards differs only in that user's enabled flag |
| `CognitoService.SetUserEnabledRoundTrip` | src/cognitoService.js:514-530 | disabling and then re-enabling a user (or the reverse) restores the pool, and setting the state a user already has changes nothing |
| `CognitoService.GetUserMfaStatus` | src/cognitoService.js:263-305 | mode ON answers all-active without a lookup; otherwise one lookup, the derived status, or all false when the lookup fails |
| `CognitoService.CreateUserSimple` | src/cognitoService.js:603-628 | create with SUPPRESS and the built attributes, then pool mode ON; success exactly when the username is free and neither call is rejected; a failed create writes no mode, a failed mode write keeps the created user |
| `CognitoService.RecreateUser` | src/cognitoService.js:563-601 | get, delete, mode ON, create, as a prefix of that plan; a failed get or delete changes nothing, a failure after the delete leaves the old username gone, and success holds exactly when no call is rejected and the read email is free or the username itself |
| `CognitoService.RecreatePreservesIdentity` | src/cognitoService.js:570-598 | the recreated account reads back the same email, name and company, has no MFA, and must change the given temporary password |
| `CognitoService.RecreateIntoTakenEmail` | src/cognitoService.js:576-598 | recreating into an email that another user already holds deletes the old user and then fails, so the account is lost |
| `CognitoService.ValidateAdminCredentials` | src/cognitoService.js:532-561 | 'Admin not found', 'Invalid password' or 'Authentication service error'; success exactly on a matching password, with the name defaulting to 'Admin' |
| `LambdaHandler.Field` | lambda/index.js:31 | a body field is read only when present as a string |
| `LambdaHandler.Text` | lambda/index.js:31 | a destructured body field is the request's string when present, and the empty string otherwise |
| `LambdaHandler.Answer` | lambda/index.js:194-201 | an operation's success becomes a 200 reply with its body, its throw stays a throw, and its calls and pool are kept |
| `LambdaHandler.RouteOf` | lambda/index.js:35-83 | the route found matches the request's path and method, and no route is found exactly when no listed pair matches |
| `LambdaHandler.RouteTableExact` | lambda/index.js:35-83 | every listed pair reaches its own operation, and no two operations share a pair |
| `LambdaHandler.ValidateAdmin` | lambda/index.js:98-120 | 200 exactly on a stored record with an equal password, with the name defaulting to 'Admin User'; otherwise 401 'Invalid credentials'; a store error is thrown |
| `LambdaHandler.ValidateCopiesAgree` | lambda/index.js:98-120 | the Lambda and browser checks accept the same credentials and report the same email; they name a nameless admin differently |
| `LambdaHandler.CreateUserOp` | lambda/index.js:137-155 | one create call with the built attributes and no pool-mode write; the reply carries the new user and the given password |
| `LambdaHandler.CreateCopiesAgree` | lambda/index.js:137-155 | the Lambda create makes the browser copy's first call only, and adds the same account |
| `LambdaHandler.RecreateUserOp` | lambda/index.js:157-192 | get, delete, create with no pool-mode write; a failed get or delete changes nothing, and success holds exactly when no call is rejected and the read email is free or the username itself |
| `LambdaHandler.RecreateCopiesAgree` | lambda/index.js:157-192 | when the browser recreate succeeds, the Lambda one returns the same account and users, and leaves the pool mode as it was |
| `LambdaHandler.ResetPasswordOp` | lambda/index.js:203-211 | one set-password call with the given password, or 'TempPass123!' when it is falsy; success exactly on an existing user, storing it as temporary with FORCE_CHANGE_PASSWORD |
| `LambdaHandler.ResetCopiesAgree` | lambda/index.js:203-211 | the Lambda reset equals the browser's forced reset except for an empty password, which only the Lambda replaces with the default |
| `LambdaHandler.SetPermanentPasswordOp` | lambda/index.js:213-256 | a rejected reset is thrown before anything else; after a reset the result is the browser setup run's, with the same calls after the reset |
| `LambdaHandler.SetPermanentCopiesAgree` | lambda/index.js:218-221 | the two copies are equal when the reset succeeds; when it fails, the Lambda stops after one call and the browser carries on |
| `LambdaHandler.SetPermanentOpSucceeds` | lambda/index.js:213-256 | with the reset and the three setup calls accepted for an existing enabled user, the Lambda run succeeds with four calls and leaves the new password permanent and confirmed |
| `LambdaHandler.GetMfaStatusOp` | lambda/index.js:304-326 | mode ON answers all-active with no lookup; otherwise one lookup and the Lambda status; a failed lookup answers all false, never an error |
| `LambdaHandler.ConfigSaysOnExactly` | lambda/index.js:306 | `ConfigSaysOn`: no configuration, or one that is not an object, never short-circuits; a configuration the console sends does exactly when its mode is ON |
| `LambdaHandler.StatusCopiesAgree` | lambda/index.js:304-326 | given the same pool configuration, the two status copies make the same calls and agree on `mfaActive` |
| `LambdaHandler.SetPoolMfaConfigOp` | lambda/index.js:342-351 | succeeds exactly on a known mode name the provider accepts, setting that mode with software tokens on; accounts untouched |
| `LambdaHandler.Dispatch` | lambda/index.js:35-83 | every routed reply carries no headers of its own and status 200, except a 401 from the credential check, which touches no pool |
| `LambdaHandler.Handle` | lambda/index.js:23-96 | OPTIONS answers 200 with an empty body before anything else; malformed JSON and any throw answer 500 with the message; unknown pairs 404 'Not found'; every response carries the CORS headers |
| `LambdaHandler.RoutedRequest` | lambda/index.js:84-95 | a routed request answers exactly its operation's status and body, or 500 with its message, with its calls and pool |
| `Directory.CompanySearchWitness` | src/AdminPage.js:115 | a user stored with company 'Acme' under `profile` is missed by the search for 'acme' as written and found by the corrected search |
| `Directory.CompanySearchWitnessShown` | src/AdminPage.js:105-121 | through the whole pipeline as written, that user searched for as 'acme' is not shown |
| `Directory.SearchProperties` | src/AdminPage.js:110-119 | `MatchesSearchAsWritten` and `MatchesSearch` ignore the case of the term, accept the empty term, and accept any term found in the lower-cased email |
| `Directory.CompanyFound` | src/AdminPage.js:110-121 | with the company read from `profile`, every created user is found by searching for its company |
| `Directory.CompanySearchPipeline` | src/AdminPage.js:105-172 | with the company read from `profile`, a created user searched for by its non-blank company is among the rows shown |
| `Directory.PassesDropDowns` | src/AdminPage.js:123-147 | `Passes`, `PassesMfa` and `PassesStatus`: a row passes exactly when the search matches and each drop-down value names the row's state; an unknown value keeps every row but still counts |
| `Directory.ActiveCount` | src/AdminPage.js:107-147 | the filter count is one for a non-blank search, plus one for each drop-down not on 'all'; so at most 3, and zero exactly when nothing is set |
| `Directory.Filtered` | src/AdminPage.js:109-147 | a row is kept exactly when it is in the input and passes the search (reading the company from the given attribute), MFA and status filters; nothing is duplicated |
| `Directory.FilteredIsSubList` | src/AdminPage.js:106-147 | the filtered rows are a sub-list of the input, in input order |
| `Directory.NoFiltersKeepAll` | src/AdminPage.js:109-147 | with no filter set every row is kept, in order |
| `Directory.RowLeTotal` | src/AdminPage.js:150-166 | the comparator's order relates any two rows |
| `Directory.RowLeTransitive` | src/AdminPage.js:150-166 | the comparator's order is transitive for either key and direction |
| `Directory.Insert` | src/AdminPage.js:150-166 | inserting a row adds exactly that row |
| `Directory.InsertSorted` | src/AdminPage.js:150-166 | inserting into a sorted list keeps it sorted |
| `Directory.SortRows` | src/AdminPage.js:150-166 | sorting only permutes the rows |
| `Directory.SortRowsSorted` | src/AdminPage.js:150-166 | the sorted rows are in the key's ascending or descending order |
| `Directory.ApplyFiltersAndSort` | src/AdminPage.js:105-172 | the shown rows are a permutation of the filtered ones, and the count is the number of active filters |
| `Directory.ApplyFiltersAndSortCorrect` | src/AdminPage.js:105-172 | the shown rows are sorted by the chosen key and order and are a permutation of a sub-list of the input |
| `Directory.NoFiltersShowAll` | src/AdminPage.js:105-172 | with no filter set every user is shown and the count is zero |
| `AdminPage.NextSort` | src/AdminPage.js:228-235 | choosing the current key flips the order; choosing another key selects it ascending |
| `AdminPage.NextSortTwice` | src/AdminPage.js:228-235 | clicking the current key twice restores the sort |
| `AdminPage.HandleSortChangeAsWritten` | src/AdminPage.js:228-236 | the sort state moves on, but a consistent page keeps its shown list unchanged: the list stays the one for the sort state of before the click |
| `AdminPage.HandleSortChange` | src/AdminPage.js:228-236 | the list shown is the current users filtered and sorted by the new sort state |
| `AdminPage.SortChangeWitness` | src/AdminPage.js:228-236 | for two users, flipping to descending by email leaves them shown ascending; the corrected handler shows them descending |
| `AdminPage.ChangeFilters` | src/AdminPage.js:200-216 | a filter change re-applies the pipeline as written with the new filters, keeping exactly the users that pass them, and counts the new filters |
| `AdminPage.ClearAllFiltersAsWritten` | src/AdminPage.js:218-226 | filters and sort return to their defaults; when no filter was set, a consistent page keeps its shown list, which is the one for the old sort |
| `AdminPage.ClearAllFilters` | src/AdminPage.js:218-226 | after clearing, the list is every user sorted by email ascending |
| `AdminPage.ClearShowsEverything` | src/AdminPage.js:218-226 | both clear handlers show every user with a zero count |
| `AdminPage.ClearWitness` | src/AdminPage.js:218-226 | with no filter set and a sort by MFA, clearing as written leaves the list out of email order |
| `AdminPage.CurrentConfig` | src/AdminPage.js:79 | `mfaConfig` or else `userPoolMFAConfig`: the configuration just fetched, or else the cached one |
| `AdminPage.MfaFor` | src/AdminPage.js:84-93 | in OPTIONAL mode one lookup, giving the account's derived `mfaActive`, or false when the lookup fails; otherwise no lookup and false |
| `AdminPage.LoadRows` | src/AdminPage.js:82-95 | one row per listed user in order; lookups exactly in OPTIONAL mode, one per user; a failed lookup shows inactive |
| `AdminPage.Listing` | src/AdminPage.js:78 | the users `listUsers` returned, in the order `order`: each entry is a listed pool user with its account and is named by `order`, every listed pool user that `order` names appears, and none twice when `order` repeats no name |
| `AdminPage.ListingRows` | src/AdminPage.js:78-95 | the loaded rows carry the pool accounts' attributes and enabled flags, and every listed user that `order` names has a row |
| `AdminPage.ListingRowsOnce` | src/AdminPage.js:78-95 | when `order` names every listed user exactly once, every listed pool user has exactly one row |
| `AdminPage.LoadUsers` | src/AdminPage.js:75-103 | one `listUsers` first; a failed listing keeps the page and shows 'Error: ' and the message; otherwise the message is cleared, the page is consistent under the same filters and sort, every row describes a pool account, every pool user that `order` names has a row, and lookups happen exactly in OPTIONAL mode |
| `AdminPage.LoadUsersRowPerUser` | src/AdminPage.js:75-103 | when `order` is a true listing order, a successful load shows each user of the pool in exactly one row |
| `AdminPage.RequiredPoolShowsInactive` | src/AdminPage.js:82-95 | with the pool mode ON no lookup is made and every row shows MFA inactive, although the service's status query reports that user MFA-active |
| `AdminPage.Display` | src/AdminPage.js:528-529 | ON is displayed as 'REQUIRED' and every other mode by its own name |
| `AdminPage.TogglePlan` | src/AdminPage.js:524-531 | nothing without a loaded configuration; ON turns to OPTIONAL and every other mode to ON |
| `AdminPage.ToggleTwice` | src/AdminPage.js:524-531 | toggling twice returns ON or OPTIONAL to itself; OFF goes to ON and then OPTIONAL |
| `AdminPage.HandleTogglePool` | src/AdminPage.js:524-549 | one pool write with the toggled mode and software tokens on, succeeding exactly when not rejected; a failure shows 'Error updating MFA configuration: ' and the provider's error; nothing without a loaded configuration |
| `AdminPage.Poll` | src/AdminPage.js:362-373 | at most the given number of reads, every one a read of the pool; every read before the last succeeded; a failure is the last read's error; success has its last read observing OPTIONAL; giving up reads the full count |
| `AdminPage.PollOutcome` | src/AdminPage.js:362-373 | the poll sees OPTIONAL exactly when one of its reads falls after the stale reads, or a stale read already shows OPTIONAL |
| `AdminPage.SwitchToOptional` | src/AdminPage.js:355-380 | the switch runs only when the cached mode is ON: one write of OPTIONAL, then at most 10 reads |
| `AdminPage.SwitchOutcome` | src/AdminPage.js:355-380 | with no rejection, the switch succeeds exactly when fewer than 10 reads are stale or the mode already reads OPTIONAL; otherwise 'Failed to switch to OPTIONAL mode' after 10 reads |
| `AdminPage.MfaChange` | src/AdminPage.js:348-392 | the gate and then the per-user write; once the gate passes, success exactly on an existing user whose write is not rejected; errors carry the handler's prefix, and success leaves the TOTP setting as requested |
| `AdminPage.NoWriteWithoutSwitch` | src/AdminPage.js:374-378 | when the switch fails, no per-user preference write is made |
| `CreateUserPage.Step1Submit` | src/CreateUserPage.js:35-43 | on to step 2 exactly with an email and a temporary password; otherwise 'Please fill in all fields' |
| `CreateUserPage.Step2Submit` | src/CreateUserPage.js:45-53 | on to step 3 exactly with a company and a name; otherwise 'Please fill in all fields' |
| `CreateUserPage.BackTo1` | src/CreateUserPage.js:160 | Back from step 2 goes to step 1 and keeps the form |
| `CreateUserPage.BackTo2` | src/CreateUserPage.js:184 | Back from step 3 goes to step 2 and keeps the form |
| `CreateUserPage.HandleCreateUser` | src/CreateUserPage.js:55-79 | success reaches step 4 holding the entered details and the returned password and username; an error keeps the step and shows 'Error creating user: ' and the error; loading ends false |
| `CreateUserPage.ResetForm` | src/CreateUserPage.js:83-88 | back to step 1 with every field empty, no created user and no message |
| `CreateUserPage.LocalCreateUser` | src/CreateUserPage.js:7-12 | `createUserSimple` and then pool mode ON a second time; after a successful create the mode is ON whatever the second write does, and success holds exactly when that write is not rejected; a failed create makes no second write |
| `CreateUserPage.TransitionsKeepReached` | src/CreateUserPage.js:35-88 | every step past the first holds the fields its earlier steps demanded, and step 4 holds a created user |
| `CreateUserPage.LocalCreateRoundTrip` | src/CreateUserPage.js:55-79 | a local create shows back the entered details, with the email as username and the typed password as stored |
| `App.Restore` | src/App.js:13-23 | a stored marker authenticates exactly when less than eight hours old; an expired marker is removed; no marker changes nothing |
| `App.WindowBoundary` | src/App.js:17 | the bound is strict: honoured one millisecond before eight hours, refused and removed at eight hours |
| `App.ExpiryIsFinal` | src/App.js:17 | a marker refused at some moment is refused at every later one |
| `App.Logout` | src/App.js:26-30 | logout removes the marker, clears authentication and returns to the landing page |
| `App.Navigate` | src/App.js:32-34 | navigation sets the page to 'admin', 'create-user' or 'landing' and changes nothing else |
| `App.Render` | src/App.js:56-62 | 'landing' shows the landing page, 'admin' the admin page, any other page the create-user page |
| `App.SidebarOf` | src/App.js:43-54 | logout is always shown; the navigation and back buttons exactly away from the landing page |
| `App.NavigationShowsTarget` | src/App.js:36-62 | each navigation shows its own page whatever the authentication state; after logout only the landing page and logout are shown |
| `AuthPage.HandleLogin` | src/AuthPage.js:18-41 | success writes the marker {username, name, now} and authenticates; a rejection shows its message or the default text and writes nothing; a throw shows 'Authentication failed: ' and the message; loading ends false |
| `AuthPage.Transport` | src/apiService.js:18-25 | a 2xx answer is read as a result; any other status throws the body's non-empty error, or else 'Request failed' |
| `AuthPage.LoginThenRestore` | src/AuthPage.js:26-31 | the marker written at login is honoured by the shell for the eight hours that follow |
| `AuthPage.LocalLogin` | src/AuthPage.js:23-35 | with the browser service the form logs in exactly on matching credentials, and a wrong password shows 'Invalid password' |
| `AuthPage.ApiLogin` | src/AuthPage.js:23-37 | through the API the form logs in on the same credentials, but a wrong password shows 'Authentication failed: Invalid credentials' |

## Left out

- Real AWS SDK and DynamoDB calls. They are the `Provider` functions and an `Env` oracle of rejections, login challenges, stale pool reads and failed pool reads. Provider input validation (for example, password policy or empty values) appears only as oracle rejections.
- The HMAC-SHA256 secret hash (src/cognitoService.js:19-30, lambda/index.js:18-21). It is foreign cryptography, and no branch depends on its value.
- Timers: the one-second sleep in the poll and the 300 ms search debounce. The poll is a bounded count of reads.
- `Promise.all` concurrency in `loadUsers`, and races on the shared pool mode between admin sessions. The per-user lookups are taken one by one in list order.
- JSX, modals, clipboard, CSS, `src/LandingPage.js`, `src/App-bypass.js` and `src/awsConfig.js`.
- The browser-storage MFA preference cache (src/cognitoService.js:307-357). Also left out: the diagnostic helpers `compareMFASettings`, `getMFADeviceDetails`, `fixMFAEnforcement`, `ensureMFAPreferenceForActiveUsers`, and the TOTP association flows `resetTOTPMFA`, `completeTOTPReset`, `setupMFAForNewUser`, `completeMFASetupForNewUser`. No modelled flow calls them.
- The transport in `src/apiService.js` is modelled only for `/auth` (`AuthPage.Transport`). The admin page calls `resetPassword` (src/AdminPage.js:273, 437). With the browser service that is `forcePasswordReset` (src/AdminPage.js:15-18), modelled as `CognitoService.ForcePasswordReset`. Through the API it throws before any request, because the transport defines only `resetUserPassword` (src/apiService.js:63). The admin page's password-reset handlers themselves are not modelled.
- `refreshData` reloads after each admin action, and the poll updates the cached configuration. Both are left out. `AdminPage.LoadUsers` takes the fetched and cached configurations as inputs.
- `AdminPage.LoadUsers`: the order in which `listUsers` returns users is an input (`order`), because `Provider.ListUsersAt` returns a set. The function does not require `order` to name every listed user once: a user `order` leaves out gets no row, and a repeated name gets two. The promise of one row per pool user is made under that condition, by `AdminPage.LoadUsersRowPerUser`.
- `Provider.ListUsersAt`: the provider returns at most 60 users per page (the `Limit` of src/cognitoService.js:35), and the console reads only the first page. The model returns every matching user. Truncating a set to 60 would need an order the provider does not document.
- `Text.LowerChar`: only A-Z are lowered. JavaScript's `toLowerCase` also lowers accented and other non-ASCII capitals.
- `Text.LexLe`: characters are compared by Unicode scalar value. JavaScript compares UTF-16 code units, and the two orders differ only between characters above U+FFFF and those in U+E000-U+FFFF.
- `Text.IsSpace`: this is the white space and line terminators that JavaScript's `trim()` removes, with the space separators of Unicode 6.3 and later. Changes in later Unicode versions are not tracked.
- Field editing in the create-user wizard, and the permanent-password modal after a create.
- `JSON.parse` of a corrupted session marker. A marker is either present and well-formed or absent.
- Non-object JSON request bodies.
- `LambdaHandler.Text`: a body field that is absent or not a string reads as the empty string. In JavaScript an absent field is `undefined`, and a number stays a number. For most fields the provider rejects such a value, which the model leaves to the `Env` oracle. `tempPassword` is different: `createUser` and `recreateUser` pass `TemporaryPassword: undefined` (lambda/index.js:150, 187), and the provider then generates a temporary password it does not return. `LambdaHandler.CreateUserOp` and `LambdaHandler.RecreateUserOp` instead create the account with the empty password, and the create reply echoes it. The generated password is not modelled, because its value is the provider's choice. Absent passwords are kept as `None` where the code itself distinguishes them (`newPassword || 'TempPass123!'`).
- `LambdaHandler.SetPoolMfaConfigOp`: a mode name that is not 'OFF', 'OPTIONAL' or 'ON' fails with the placeholder message 'Invalid MfaConfiguration' and makes no call. The real provider's validation error text is not modelled.
- `LambdaHandler.Dispatch`: its own contract states only the status and header shape. What each route does is stated by the operation it calls and by `LambdaHandler.RoutedRequest`.
- `Directory.SortRows`: the source comparator never answers "equal". The order among rows with equal keys is therefore unspecified, and the model fixes one (insertion order is kept).
- `AuthPage.Transport`: a 2xx answer that is not an admin body is read as a rejection without a message. Other routes' bodies are never sent to the login form.

## Findings

| source | as written | input that shows it | evidently intended | confidence | as-written member | corrected member |
|---|---|---|---|---|---|---|
| src/AdminPage.js:115 | the search reads the company from `custom:company` | user 'bob' with email 'bob@x.io' and `profile` 'Acme'; searching 'acme' does not find the user | read the company from `profile`, where every create and recreate stores it and the table displays it (src/AdminPage.js:293, 910; src/cognitoService.js:590) | not executed | `Directory.CompanySearchWitnessShown` | `Directory.CompanySearchPipeline` |
| src/AdminPage.js:228-236 | `applyFiltersAndSort()` runs in the same handler that sets the new sort. It sees the sort state of before the click, and no effect re-sorts on a sort change | users 'a@x' and 'b@x' sorted by email ascending; clicking the email header sets descending but leaves the list ascending | re-sort with the new key and order | not executed | `AdminPage.SortChangeWitness` | `AdminPage.HandleSortChange` |
| src/AdminPage.js:218-226 | `clearAllFilters` re-sorts with the old sort state, and is corrected later by the filter effects only when a filter value changed | no filter set, an MFA-active 'a@x' and an inactive 'b@x' sorted by MFA ascending, so 'b@x' first; clearing keeps 'b@x' first while the sort now says email ascending | show every user sorted by email ascending | not executed | `AdminPage.ClearWitness` | `AdminPage.ClearAllFilters` |

=== FILE: admin_page.dfy ===
/** The admin page of src/AdminPage.js: its directory state and the
    handlers that change it (sort, clear, filter changes, load), the pool
    MFA toggle, and the switch-to-OPTIONAL gate that runs before a per-user
    MFA change while the pool requires MFA. */
module AdminPage {
  import opened Wrappers
  import opened Provider
  import opened Derivations
  import opened Directory
  import CognitoService

  // ---------------------------------------------------------------------------
  // Directory state and its handlers

  /** The page's directory state: every loaded row (`allUsers`), the filter
      inputs, the sort, and what is displayed (`users` and the badge). */
  datatype Page = Page(all: seq<Row>, filters: Filters, spec: SortSpec, view: View)

  /** The display shows the loaded rows under the page's own filters and
      sort, the search reading the company from `companyAttr`. */
  predicate Consistent(page: Page, companyAttr: string) {
    page.view == ApplyFiltersAndSort(page.all, page.filters, page.spec, companyAttr)
  }

  /** The sort after a click on a column header: the current key flips the
      order, another key is chosen ascending. */
  function NextSort(spec: SortSpec, key: SortKey): (r: SortSpec)
    ensures r.key == key
    ensures spec.key != key ==> r.order == Asc
    ensures spec.key == key ==> r.order != spec.order
  {
    if spec.key == key then SortSpec(key, if spec.order == Asc then Desc else Asc)
    else SortSpec(key, Asc)
  }

  /** Clicking the same header twice restores the sort; a new header starts ascending. */
  lemma NextSortTwice(spec: SortSpec, key: SortKey)
    ensures spec.key == key ==> NextSort(NextSort(spec, key), key) == spec
    ensures spec.key != key ==> NextSort(spec, key) == SortSpec(key, Asc)
  {
  }

  /** `handleSortChange` as written: the new sort is stored, but the list is
      re-sorted by the render's own, previous, sort, and no effect re-sorts
      it afterwards. */
  function HandleSortChangeAsWritten(page: Page, key: SortKey): (r: Page)
    ensures r.spec == NextSort(page.spec, key) && r.all == page.all && r.filters == page.filters
    ensures Consistent(page, CompanyAsWritten) ==> r.view == page.view
    ensures Consistent(r.(spec := page.spec), CompanyAsWritten)
  {
    page.(spec := NextSort(page.spec, key), view := ApplyFiltersAndSort(page.all, page.filters, page.spec, CompanyAsWritten))
  }

  /** `handleSortChange` as intended (with the intended search): the list is
      re-sorted by the new sort. */
  function HandleSortChange(page: Page, key: SortKey): (r: Page)
    ensures Consistent(r, CompanyAsIntended)
    ensures r.spec == NextSort(page.spec, key) && r.all == page.all && r.filters == page.filters
    ensures Sorted(r.spec, r.view.shown)
    ensures Consistent(page, CompanyAsIntended) ==> multiset(r.view.shown) == multiset(page.view.shown)
  {
    var spec := NextSort(page.spec, key);
    ApplyFiltersAndSortCorrect(page.all, page.filters, spec, CompanyAsIntended);
    page.(spec := spec, view := ApplyFiltersAndSort(page.all, page.filters, spec, CompanyAsIntended))
  }

  /** The two rows of the witnesses below: both pass no filter, and a@x
      sorts strictly before b@x by email. */
  lemma TwoRows(ma: bool, mb: bool)
    ensures var a, b := Row("a@x", [], true, ma), Row("b@x", [], true, mb);
            && Filtered([a, b], NoFilters, CompanyAsWritten) == [a, b]
            && Text.LexLe(EmailKey(a), EmailKey(b)) && !Text.LexLe(EmailKey(b), EmailKey(a))
  {
    var a, b := Row("a@x", [], true, ma), Row("b@x", [], true, mb);
    var ka, kb := EmailKey(a), EmailKey(b);
    assert RowEmail(a) == "a@x" && RowEmail(b) == "b@x";
    assert ka == "a@x" by { assert ka[0] == 'a' && ka[1] == '@' && ka[2] == 'x'; }
    assert kb == "b@x" by { assert kb[0] == 'b' && kb[1] == '@' && kb[2] == 'x'; }
    assert Passes(NoFilters, a, CompanyAsWritten) && Passes(NoFilters, b, CompanyAsWritten);
    assert [a, b][1..] == [b];
    assert Filtered([b], NoFilters, CompanyAsWritten) == [b] by { assert [b][1..] == []; }
  }

  /** Two users a@x and b@x shown ascending by email: a click on the email
      header stores "descending", yet the list as written stays ascending,
      out of the order the page now claims; the corrected handler shows it descending. */
  lemma SortChangeWitness()
    ensures var a, b := Row("a@x", [], true, false), Row("b@x", [], true, false);
            var page := Page([a, b], NoFilters, DefaultSort, ApplyFiltersAndSort([a, b], NoFilters, DefaultSort, CompanyAsWritten));
            var stale := HandleSortChangeAsWritten(page, ByEmail);
            && Consistent(page, CompanyAsWritten)
            && stale.spec == SortSpec(ByEmail, Desc)
            && !Sorted(stale.spec, stale.view.shown)
            && !Consistent(stale, CompanyAsWritten)
            && Sorted(HandleSortChange(page, ByEmail).spec, HandleSortChange(page, ByEmail).view.shown)
  {
    var a, b := Row("a@x", [], true, false), Row("b@x", [], true, false);
    TwoRows(false, false);
    assert SortRows(DefaultSort, [a, b]) == [a, b] by {
      assert [a, b][1..] == [b];
      assert SortRows(DefaultSort, [b]) == [b] by { assert [b][1..] == []; }
      assert RowLe(DefaultSort, a, b);
    }
    var page := Page([a, b], NoFilters, DefaultSort, ApplyFiltersAndSort([a, b], NoFilters, DefaultSort, CompanyAsWritten));
    var stale := HandleSortChangeAsWritten(page, ByEmail);
    assert stale.view.shown == [a, b];
    assert !RowLe(stale.spec, stale.view.shown[0], stale.view.shown[1]);
  }

  /** A filter input changes: the effect watching it re-applies the pipeline
      with the new filters and the current sort. */
  function ChangeFilters(page: Page, f: Filters): (r: Page)
    ensures Consistent(r, CompanyAsWritten)
    ensures r.filters == f && r.spec == page.spec && r.all == page.all
    ensures forall x :: x in r.view.shown <==> x in page.all && Passes(f, x, CompanyAsWritten)
    ensures r.view.count == ActiveCount(f)
  {
    page.(filters := f, view := ApplyFiltersAndSort(page.all, f, page.spec, CompanyAsWritten))
  }

  /** `clearAllFilters` as written, once the effects have run: the direct call
      uses the render's previous filters and sort; the effects re-apply with
      the cleared filters and the default sort only if some filter input
      actually changed. */
  function ClearAllFiltersAsWritten(page: Page): (r: Page)
    ensures r.filters == NoFilters && r.spec == DefaultSort && r.all == page.all
    ensures page.filters != NoFilters ==> Consistent(r, CompanyAsWritten)
    ensures page.filters == NoFilters && Consistent(page, CompanyAsWritten) ==> r.view == page.view
    ensures page.filters == NoFilters ==> Consistent(r.(spec := page.spec), CompanyAsWritten)
  {
    var view := if page.filters != NoFilters then ApplyFiltersAndSort(page.all, NoFilters, DefaultSort, CompanyAsWritten)
                else ApplyFiltersAndSort(page.all, page.filters, page.spec, CompanyAsWritten);
    Page(page.all, NoFilters, DefaultSort, view)
  }

  /** `clearAllFilters` as intended: everything shown, in the default order. */
  function ClearAllFilters(page: Page): (r: Page)
    ensures Consistent(r, CompanyAsIntended)
    ensures r.filters == NoFilters && r.spec == DefaultSort && r.all == page.all
    ensures Sorted(DefaultSort, r.view.shown)
  {
    ApplyFiltersAndSortCorrect(page.all, NoFilters, DefaultSort, CompanyAsIntended);
    Page(page.all, NoFilters, DefaultSort, ApplyFiltersAndSort(page.all, NoFilters, DefaultSort, CompanyAsIntended))
  }

  /** Either way, clearing shows every loaded row and hides the badge; only
      the order can differ. */
  lemma ClearShowsEverything(page: Page)
    ensures var r := ClearAllFiltersAsWritten(page);
            multiset(r.view.shown) == multiset(page.all) && r.view.count == 0
    ensures var r := ClearAllFilters(page);
            multiset(r.view.shown) == multiset(page.all) && r.view.count == 0
  {
    NoFiltersShowAll(page.all, DefaultSort, CompanyAsWritten);
    NoFiltersShowAll(page.all, page.spec, CompanyAsWritten);
    NoFiltersShowAll(page.all, DefaultSort, CompanyAsIntended);
  }

  /** With no filter set and the list sorted by MFA, clearing as written
      leaves it in MFA order, although the page now claims email order. */
  lemma ClearWitness()
    ensures var a, b := Row("a@x", [], true, true), Row("b@x", [], true, false);
            var spec := SortSpec(ByMfa, Asc);
            var page := Page([a, b], NoFilters, spec, ApplyFiltersAndSort([a, b], NoFilters, spec, CompanyAsWritten));
            var r := ClearAllFiltersAsWritten(page);
            Consistent(page, CompanyAsWritten) && r.spec == DefaultSort && !Sorted(DefaultSort, r.view.shown)
  {
    var a, b := Row("a@x", [], true, true), Row("b@x", [], true, false);
    var spec := SortSpec(ByMfa, Asc);
    TwoRows(true, false);
    assert SortRows(spec, [a, b]) == [b, a] by {
      assert [a, b][1..] == [b];
      assert SortRows(spec, [b]) == [b] by { assert [b][1..] == []; }
      assert !RowLe(spec, a, b);
      assert [b][1..] == [];
    }
    var r := ClearAllFiltersAsWritten(Page([a, b], NoFilters, spec, ApplyFiltersAndSort([a, b], NoFilters, spec, CompanyAsWritten)));
    assert r.view.shown == [b, a];
    assert !RowLe(DefaultSort, r.view.shown[0], r.view.shown[1]);
  }

  // ---------------------------------------------------------------------------
  // Loading

  /** `mfaConfig || userPoolMFAConfig`: the configuration just fetched, else the cached one. */
  function CurrentConfig(fetched: Option<PoolConfig>, cached: Option<PoolConfig>): (r: Option<PoolConfig>)
    ensures fetched.Some? ==> r == fetched
    ensures fetched.None? ==> r == cached
  {
    if fetched.Some? then fetched else cached
  }

  /** Whether a configuration is present with the mode OPTIONAL. */
  predicate IsOptional(config: Option<PoolConfig>) {
    config.Some? && config.value.mode == Optional
  }

  /** The MFA state `loadUsers` attaches to one listed user: looked up only
      when the pool mode is OPTIONAL, false otherwise. */
  function MfaFor(p: Pool, env: Env, config: Option<PoolConfig>, u: string): (r: Run<bool>)
    ensures r.result.Success? && r.pool == p
    ensures IsOptional(config) ==> r.trace == [GetUser(u)]
    ensures IsOptional(config) && GetUserAt(p, env, u).Success? ==> r.result.value == AccountMfaStatus(p.users[u]).mfaActive
    ensures IsOptional(config) && GetUserAt(p, env, u).Failure? ==> !r.result.value
    ensures !IsOptional(config) ==> r.trace == [] && !r.result.value
  {
    if IsOptional(config) then
      var s := CognitoService.GetUserMfaStatus(p, env, u, config);
      Run(Success(s.result.value.mfaActive), p, s.trace)
    else Run(Success(false), p, [])
  }

  /** The rows built from a listing (username and account, in the order the
      provider listed them). */
  function LoadRows(p: Pool, env: Env, config: Option<PoolConfig>, listing: seq<(string, Account)>): (r: Run<seq<Row>>)
    ensures r.result.Success? && r.pool == p
    ensures |r.result.value| == |listing|
    ensures forall i :: 0 <= i < |listing| ==>
      r.result.value[i] == Row(listing[i].0, listing[i].1.attributes, listing[i].1.enabled, r.result.value[i].mfaActive)
    ensures !IsOptional(config) ==>
      r.trace == [] && forall i :: 0 <= i < |listing| ==> !r.result.value[i].mfaActive
    ensures IsOptional(config) ==>
      |r.trace| == |listing| && forall i :: 0 <= i < |listing| ==> r.trace[i] == GetUser(listing[i].0)
    ensures forall i :: 0 <= i < |listing| && IsOptional(config) && GetUserAt(p, env, listing[i].0).Success? ==>
      r.result.value[i].mfaActive == AccountMfaStatus(p.users[listing[i].0]).mfaActive
    ensures forall i :: 0 <= i < |listing| && GetUserAt(p, env, listing[i].0).Failure? ==> !r.result.value[i].mfaActive
    decreases |listing|
  {
    if |listing| == 0 then Run(Success([]), p, [])
    else
      var (u, a) := listing[0];
      var m := MfaFor(p, env, config, u);
      var rest := LoadRows(p, env, config, listing[1..]);
      Run(Success([Row(u, a.attributes, a.enabled, m.result.value)] + rest.result.value), p, m.trace + rest.trace)
  }

  /** Whether `order` can be the order of a listing of `names`: it names
      every listed user, and none twice. */
  predicate ListsEachOnce(order: seq<string>, names: set<string>) {
    (forall u :: u in names ==> u in order)
    && forall i, j :: 0 <= i < j < |order| ==> order[i] != order[j]
  }

  /** The users a listing returned, in the order `order` the provider
      returned them, each with its account. */
  function Listing(p: Pool, names: set<string>, order: seq<string>): (l: seq<(string, Account)>)
    ensures forall i :: 0 <= i < |l| ==> l[i].0 in names && l[i].0 in p.users && l[i].1 == p.users[l[i].0]
    ensures forall i :: 0 <= i < |l| ==> l[i].0 in order
    ensures forall u :: u in order && u in names && u in p.users ==> (u, p.users[u]) in l
    ensures (forall i, j :: 0 <= i < j < |order| ==> order[i] != order[j]) ==>
      forall i, j :: 0 <= i < j < |l| ==> l[i].0 != l[j].0
    decreases |order|
  {
    if |order| == 0 then []
    else
      var rest := Listing(p, names, order[1..]);
      assert forall u :: u in order ==> u == order[0] || u in order[1..];
      if order[0] in names && order[0] in p.users then [(order[0], p.users[order[0]])] + rest
      else rest
  }

  /** The usernames of some rows, in order. */
  function Usernames(rows: seq<Row>): (s: seq<string>)
    ensures |s| == |rows| && forall i :: 0 <= i < |rows| ==> s[i] == rows[i].username
  {
    seq(|rows|, i requires 0 <= i < |rows| => rows[i].username)
  }

  /** The rows loaded from a listing describe accounts of the pool, and every
      listed user the provider returned has its row. */
  lemma ListingRows(p: Pool, env: Env, config: Option<PoolConfig>, names: set<string>, order: seq<string>)
    ensures var rows := LoadRows(p, env, config, Listing(p, names, order)).result.value;
            && (forall i :: 0 <= i < |rows| ==>
                  rows[i].username in p.users
                  && rows[i].attributes == p.users[rows[i].username].attributes
                  && rows[i].enabled == p.users[rows[i].username].enabled)
            && (forall u :: u in order && u in names && u in p.users ==> u in Usernames(rows))
  {
    var listing := Listing(p, names, order);
    var rows := LoadRows(p, env, config, listing).result.value;
    forall u | u in order && u in names && u in p.users
      ensures u in Usernames(rows)
    {
      var i :| 0 <= i < |listing| && listing[i] == (u, p.users[u]);
      assert Usernames(rows)[i] == u;
    }
  }

  /** For a true listing order, every listed pool user has exactly one row. */
  lemma ListingRowsOnce(p: Pool, env: Env, config: Option<PoolConfig>, names: set<string>, order: seq<string>)
    requires ListsEachOnce(order, names)
    ensures var rows := LoadRows(p, env, config, Listing(p, names, order)).result.value;
            && (forall u :: u in names && u in p.users ==> u in Usernames(rows))
            && forall i, j :: 0 <= i < j < |rows| ==> rows[i].username != rows[j].username
  {
    ListingRows(p, env, config, names, order);
  }

  /** What `loadUsers` leaves behind: the page, the message line, the calls made. */
  datatype Loaded = Loaded(page: Page, message: string, trace: seq<Call>)

  /** `loadUsers(mfaConfig)`: list the users, attach each one's MFA state,
      and show them under the page's filters and sort; a failed listing
      leaves the page as it was and shows 'Error: ' and the message. The
      provider's listing order is the input `order`. */
  function LoadUsers(page: Page, p: Pool, env: Env, fetched: Option<PoolConfig>, cached: Option<PoolConfig>,
                     order: seq<string>): (r: Loaded)
    ensures |r.trace| >= 1 && r.trace[0] == ListUsers(ListLimit, None)
    ensures ListUsersAt(p, env, ListLimit, None).Failure? ==>
      r == Loaded(page, "Error: " + ListUsersAt(p, env, ListLimit, None).error, [ListUsers(ListLimit, None)])
    ensures ListUsersAt(p, env, ListLimit, None).Success? ==>
      && r.message == ""
      && Consistent(r.page, CompanyAsWritten)
      && r.page.filters == page.filters && r.page.spec == page.spec
    ensures ListUsersAt(p, env, ListLimit, None).Success? ==>
      && (forall i :: 0 <= i < |r.page.all| ==>
            r.page.all[i].username in p.users
            && r.page.all[i].attributes == p.users[r.page.all[i].username].attributes
            && r.page.all[i].enabled == p.users[r.page.all[i].username].enabled)
      && (forall u :: u in order && u in p.users ==> u in Usernames(r.page.all))
    ensures ListUsersAt(p, env, ListLimit, None).Success? && !IsOptional(CurrentConfig(fetched, cached)) ==>
      |r.trace| == 1 && forall i :: 0 <= i < |r.page.all| ==> !r.page.all[i].mfaActive
    ensures ListUsersAt(p, env, ListLimit, None).Success? && IsOptional(CurrentConfig(fetched, cached)) ==>
      |r.trace| == 1 + |r.page.all|
      && forall i :: 0 <= i < |r.page.all| && GetUserAt(p, env, r.page.all[i].username).Success? ==>
           r.page.all[i].mfaActive == AccountMfaStatus(p.users[r.page.all[i].username]).mfaActive
  {
    var listed := CognitoService.ListUsersOp(p, env, None);
    match listed.result
    case Failure(e) => Loaded(page, "Error: " + e, listed.trace)
    case Success(names) =>
      var config := CurrentConfig(fetched, cached);
      var listing := Listing(p, names, order);
      var rows := LoadRows(p, env, config, listing);
      ListingRows(p, env, config, names, order);
      var all := rows.result.value;
      assert forall i :: 0 <= i < |all| ==> all[i].username == listing[i].0;
      Loaded(Page(all, page.filters, page.spec, ApplyFiltersAndSort(all, page.filters, page.spec, CompanyAsWritten)),
             "", listed.trace + rows.trace)
  }

  /** When `order` is a true listing order (every user of the pool, none
      twice), a successful load shows each user of the pool in exactly one row. */
  lemma LoadUsersRowPerUser(page: Page, p: Pool, env: Env, fetched: Option<PoolConfig>, cached: Option<PoolConfig>,
                            order: seq<string>)
    requires ListUsersAt(p, env, ListLimit, None).Success?
    requires ListsEachOnce(order, p.users.Keys)
    ensures var all := LoadUsers(page, p, env, fetched, cached, order).page.all;
            && (forall u :: u in p.users ==> u in Usernames(all))
            && forall i, j :: 0 <= i < j < |all| ==> all[i].username != all[j].username
  {
    var names := ListUsersAt(p, env, ListLimit, None).value;
    assert names == p.users.Keys by {
      assert forall u :: u in names <==> u in p.users && PassesFilter(u, p.users[u], None);
    }
    ListingRowsOnce(p, env, CurrentConfig(fetched, cached), names, order);
  }

  /** With the pool requiring MFA, every loaded row shows MFA inactive and no
      account is looked up, although the service's own status query reports
      every user of such a pool active. */
  lemma RequiredPoolShowsInactive(p: Pool, env: Env, config: PoolConfig, listing: seq<(string, Account)>, u: string)
    requires config.mode == On
    ensures var r := LoadRows(p, env, Some(config), listing);
            r.trace == [] && forall i :: 0 <= i < |listing| ==> !r.result.value[i].mfaActive
    ensures CognitoService.GetUserMfaStatus(p, env, u, Some(config)).result.value.mfaActive
  {
  }

  // ---------------------------------------------------------------------------
  // Pool MFA toggle

  /** What the toggle offers: the mode it writes and the two names it shows. */
  datatype ToggleChoice = ToggleChoice(newMode: PoolMode, displayCurrent: string, displayNew: string)

  /** A mode's name on screen: ON is shown as REQUIRED. */
  function Display(m: PoolMode): (s: string)
    ensures s == "REQUIRED" <==> m == On
    ensures m != On ==> s == ModeName(m)
  {
    if m == On then "REQUIRED" else ModeName(m)
  }

  /** `handleTogglePoolMFA`: nothing without a loaded configuration; ON
      switches to OPTIONAL, any other mode to ON. */
  function TogglePlan(cached: Option<PoolConfig>): (r: Option<ToggleChoice>)
    ensures r.None? <==> cached.None?
    ensures r.Some? ==> (r.value.newMode == Optional <==> cached.value.mode == On)
    ensures r.Some? ==> r.value.newMode in {Optional, On}
    ensures r.Some? ==> r.value.displayCurrent == Display(cached.value.mode) && r.value.displayNew == Display(r.value.newMode)
  {
    match cached
    case None => None
    case Some(c) =>
      var m := if c.mode == On then Optional else On;
      Some(ToggleChoice(m, Display(c.mode), Display(m)))
  }

  /** Toggling twice restores ON and OPTIONAL; OFF does not come back, it
      goes to ON and then to OPTIONAL. */
  lemma ToggleTwice(c: PoolConfig)
    ensures var once := TogglePlan(Some(c)).value.newMode;
            var twice := TogglePlan(Some(c.(mode := once))).value.newMode;
            (c.mode != Off ==> twice == c.mode) && (c.mode == Off ==> once == On && twice == Optional)
  {
  }

  /** The confirmed toggle: one pool write of the chosen mode (software token
      enabled), its error shown with the page's prefix. */
  function HandleTogglePool(p: Pool, env: Env, cached: Option<PoolConfig>): (r: Run<()>)
    ensures cached.None? ==> r == Run(Success(()), p, [])
    ensures cached.Some? ==> r.trace == [SetPoolMfa(TogglePlan(cached).value.newMode, true)]
    ensures r.pool.users == p.users
    ensures r.result.Success? && cached.Some? ==>
      r.pool.mode == TogglePlan(cached).value.newMode && r.pool.softwareToken
    ensures r.result.Failure? ==> r.pool == p
    ensures cached.Some? ==> (r.result.Success? <==> SetPoolMfa(TogglePlan(cached).value.newMode, true) !in env.rejects)
    ensures r.result.Failure? ==>
      r.result.error == "Error updating MFA configuration: " + SetPoolMfaAt(p, env, TogglePlan(cached).value.newMode, true).error
  {
    match TogglePlan(cached)
    case None => Run(Success(()), p, [])
    case Some(choice) =>
      var w := CognitoService.UpdateUserPoolMfaConfig(p, env, choice.newMode);
      match w.result
      case Success(_) => w
      case Failure(e) => Run(Failure("Error updating MFA configuration: " + e), w.pool, w.trace)
  }

  // ---------------------------------------------------------------------------
  // The switch-to-OPTIONAL gate

  /** The number of reads the gate makes at most. */
  const MaxPolls: nat := 10

  const SwitchFailed := "Failed to switch to OPTIONAL mode"

  /** The mode the `k`-th read after a mode write observes: the previous mode
      while the provider is still stale, then the pool's. */
  function Observed(p: Pool, env: Env, prev: PoolMode, k: nat): PoolMode {
    if k < env.staleReads then prev else p.mode
  }

  /** Whether the service rejects the `k`-th read after a mode write. */
  predicate ReadFails(env: Env, k: nat) {
    DescribePool in env.rejects || k in env.failedReads
  }

  /** The message the `k`-th read is rejected with. */
  function ReadError(env: Env, k: nat): string
    requires ReadFails(env, k)
  {
    if DescribePool in env.rejects then env.rejects[DescribePool] else env.failedReads[k]
  }

  /** The polling loop: up to `left` reads, numbered from `done`, stopping at
      the first that observes OPTIONAL. A failed read is thrown. */
  function Poll(p: Pool, env: Env, prev: PoolMode, done: nat, left: nat): (r: Run<bool>)
    ensures r.pool == p
    ensures |r.trace| <= left
    ensures forall i :: 0 <= i < |r.trace| ==> r.trace[i] == DescribePool
    ensures r.result == Success(false) ==> |r.trace| == left
    ensures forall k :: done <= k < done + |r.trace| - 1 ==> !ReadFails(env, k)
    ensures r.result.Failure? ==>
      |r.trace| >= 1 && ReadFails(env, done + |r.trace| - 1) && r.result.error == ReadError(env, done + |r.trace| - 1)
    ensures r.result == Success(true) ==> |r.trace| >= 1 && Observed(p, env, prev, done + |r.trace| - 1) == Optional
    decreases left
  {
    if left == 0 then Run(Success(false), p, [])
    else if ReadFails(env, done) then Run(Failure(ReadError(env, done)), p, [DescribePool])
    else if Observed(p, env, prev, done) == Optional then Run(Success(true), p, [DescribePool])
    else
      var rest := Poll(p, env, prev, done + 1, left - 1);
      Run(rest.result, p, [DescribePool] + rest.trace)
  }

  /** The loop reports the switch exactly when one of its reads observes
      OPTIONAL: while stale, that needs the previous mode to be OPTIONAL; after,
      the pool's mode, provided the loop lasts past the stale reads. */
  lemma {:induction false} PollOutcome(p: Pool, env: Env, prev: PoolMode, done: nat, left: nat)
    requires forall k :: done <= k < done + left ==> !ReadFails(env, k)
    ensures Poll(p, env, prev, done, left).result.Success?
    ensures Poll(p, env, prev, done, left).result.value <==>
      left > 0 && ((prev == Optional && done < env.staleReads)
                   || (p.mode == Optional && env.staleReads < done + left))
    decreases left
  {
    if left > 0 && Observed(p, env, prev, done) != Optional {
      PollOutcome(p, env, prev, done + 1, left - 1);
    }
  }

  /** The gate before a per-user MFA change: with a cached mode of ON, write
      OPTIONAL and poll for it; otherwise do nothing. */
  function SwitchToOptional(p: Pool, env: Env, cached: Option<PoolConfig>): (r: Run<()>)
    ensures r.pool.users == p.users
    ensures !(cached.Some? && cached.value.mode == On) ==> r == Run(Success(()), p, [])
    ensures cached.Some? && cached.value.mode == On ==>
      1 <= |r.trace| <= 1 + MaxPolls && r.trace[0] == SetPoolMfa(Optional, true)
      && forall i :: 1 <= i < |r.trace| ==> r.trace[i] == DescribePool
    ensures r.result.Success? && cached.Some? && cached.value.mode == On ==>
      r.pool.mode == Optional && |r.trace| >= 2
  {
    if cached.Some? && cached.value.mode == On then
      var w := CognitoService.UpdateUserPoolMfaConfig(p, env, Optional);
      if w.result.Failure? then Run(Failure(w.result.error), w.pool, w.trace)
      else
        var poll := Poll(w.pool, env, p.mode, 0, MaxPolls);
        var trace := w.trace + poll.trace;
        match poll.result
        case Failure(e) => Run(Failure(e), w.pool, trace)
        case Success(switched) =>
          if switched then Run(Success(()), w.pool, trace) else Run(Failure(SwitchFailed), w.pool, trace)
    else Run(Success(()), p, [])
  }

  /** With the write and the reads accepted, the gate opens exactly when the
      provider turns consistent within the ten reads, or the pool was already OPTIONAL. */
  lemma SwitchOutcome(p: Pool, env: Env, cached: PoolConfig)
    requires cached.mode == On
    requires SetPoolMfa(Optional, true) !in env.rejects
    requires forall k :: 0 <= k < MaxPolls ==> !ReadFails(env, k)
    ensures var r := SwitchToOptional(p, env, Some(cached));
            (r.result.Success? <==> env.staleReads < MaxPolls || p.mode == Optional)
            && (r.result.Failure? ==> r.result.error == SwitchFailed && |r.trace| == 1 + MaxPolls)
  {
    var w := CognitoService.UpdateUserPoolMfaConfig(p, env, Optional);
    PollOutcome(w.pool, env, p.mode, 0, MaxPolls);
  }

  /** The per-user write of an MFA change. */
  function MfaWrite(u: string, enable: bool): Call {
    if enable then SetMfaPreference(u, Some(MfaSetting(true, true)), None)
    else SetMfaPreference(u, Some(MfaOff), Some(MfaOff))
  }

  /** The confirmed enable / disable: the gate, then the per-user write;
      either's error is shown after the handler's prefix. */
  function MfaChange(p: Pool, env: Env, cached: Option<PoolConfig>, u: string, enable: bool): (r: Run<()>)
    ensures var g := SwitchToOptional(p, env, cached);
            && (g.result.Failure? ==> r.trace == g.trace && r.pool == g.pool)
            && (g.result.Success? ==> r.trace == g.trace + [MfaWrite(u, enable)])
    ensures var prefix := if enable then "Error enabling MFA: " else "Error disabling MFA: ";
            r.result.Failure? ==> |r.result.error| >= |prefix| && r.result.error[..|prefix|] == prefix
    ensures r.result.Success? ==> u in r.pool.users && r.pool.users[u].totp.enabled == enable
    ensures r.result.Success? && !enable ==> !r.pool.users[u].sms.enabled
    ensures r.result.Success? && cached.Some? && cached.value.mode == On ==> r.pool.mode == Optional
    ensures SwitchToOptional(p, env, cached).result.Success? ==>
      (r.result.Success? <==> MfaWrite(u, enable) !in env.rejects && u in p.users)
  {
    var prefix := if enable then "Error enabling MFA: " else "Error disabling MFA: ";
    var g := SwitchToOptional(p, env, cached);
    match g.result
    case Failure(e) => Run(Failure(prefix + e), g.pool, g.trace)
    case Success(_) =>
      var w := if enable then CognitoService.EnableTotpMfa(g.pool, env, u) else CognitoService.DisableTotpMfa(g.pool, env, u);
      assert w.trace == [MfaWrite(u, enable)];
      match w.result
      case Failure(e) => Run(Failure(prefix + e), w.pool, g.trace + w.trace)
      case Success(_) => Run(Success(()), w.pool, g.trace + w.trace)
  }

  /** No per-user write happens while the pool is still seen as requiring
      MFA: when the gate fails, the trace holds no per-user write at all. */
  lemma NoWriteWithoutSwitch(p: Pool, env: Env, cached: Option<PoolConfig>, u: string, enable: bool)
    requires SwitchToOptional(p, env, cached).result.Failure?
    ensures forall c :: c in MfaChange(p, env, cached, u, enable).trace ==> !c.SetMfaPreference?
  {
  }
}

=== FILE: app.dfy ===
/** The application shell of src/App.js: the stored session marker and
    its eight-hour window, logout, page navigation, and which page and
    sidebar buttons are shown. The marker lives in browser storage; here
    it is an `Option` passed in and handed back. */
module App {
  import opened Wrappers

  /** Eight hours, in milliseconds. */
  const SessionWindow: int := 8 * 60 * 60 * 1000

  /** The `adminAuth` marker written at login. */
  datatype Marker = Marker(username: string, adminName: string, timestamp: int)

  /** The shell's state: the authentication flag, the current page name,
      and the stored marker. */
  datatype Shell = Shell(authenticated: bool, page: string, stored: Option<Marker>)

  /** The shell as first rendered, before the mount effect runs. */
  function Initial(stored: Option<Marker>): Shell {
    Shell(false, "landing", stored)
  }

  /** Whether a marker written at `timestamp` is still current at `now`. */
  predicate Fresh(m: Marker, now: int) {
    now - m.timestamp < SessionWindow
  }

  /** The mount effect: a current marker authenticates and stays; an
      expired one is removed; no marker changes nothing. */
  function Restore(s: Shell, now: int): (r: Shell)
    ensures r.page == s.page
    ensures s.stored.None? ==> r == s
    ensures s.stored.Some? ==>
      (r.authenticated <==> s.authenticated || now < s.stored.value.timestamp + SessionWindow)
    ensures r.stored.Some? <==> s.stored.Some? && now < s.stored.value.timestamp + SessionWindow
    ensures r.stored.Some? ==> r.stored == s.stored
  {
    match s.stored
    case None => s
    case Some(m) =>
      if Fresh(m, now) then s.(authenticated := true) else s.(stored := None)
  }

  /** The window is strict: a marker is honoured for its last millisecond
      and refused exactly eight hours after it was written. */
  lemma WindowBoundary(m: Marker)
    ensures Restore(Initial(Some(m)), m.timestamp + SessionWindow - 1).authenticated
    ensures !Restore(Initial(Some(m)), m.timestamp + SessionWindow).authenticated
    ensures Restore(Initial(Some(m)), m.timestamp + SessionWindow).stored.None?
  {
  }

  /** Restoring is monotone in time: a marker refused at some moment is
      refused at every later one. */
  lemma ExpiryIsFinal(m: Marker, now: int, later: int)
    requires now <= later
    requires !Restore(Initial(Some(m)), now).authenticated
    ensures !Restore(Initial(Some(m)), later).authenticated
  {
  }

  /** `handleLogout`: marker removed, authentication cleared, back to the landing page. */
  function Logout(s: Shell): (r: Shell)
    ensures r.stored.None? && !r.authenticated && r.page == "landing"
  {
    Shell(false, "landing", None)
  }

  /** The three navigation callbacks. */
  datatype Target = ToAdmin | ToCreateUser | ToLanding

  function PageName(t: Target): string {
    match t
    case ToAdmin => "admin"
    case ToCreateUser => "create-user"
    case ToLanding => "landing"
  }

  /** Navigation changes the page and nothing else. */
  function Navigate(s: Shell, t: Target): (r: Shell)
    ensures r.authenticated == s.authenticated && r.stored == s.stored
    ensures r.page == PageName(t)
  {
    s.(page := PageName(t))
  }

  /** The page components the main area can show. */
  datatype Screen = LandingScreen | AdminScreen | CreateUserScreen

  /** The main area: the landing page, the admin page, or for every other
      page name the create-user page. The authentication gate is disabled,
      so the flag plays no part. */
  function Render(s: Shell): (r: Screen)
    ensures r == LandingScreen <==> s.page == "landing"
    ensures r == AdminScreen <==> s.page == "admin"
    ensures r == CreateUserScreen <==> s.page != "landing" && s.page != "admin"
  {
    if s.page == "landing" then LandingScreen
    else if s.page == "admin" then AdminScreen
    else CreateUserScreen
  }

  /** Which sidebar buttons are shown. */
  datatype Sidebar = Sidebar(navigation: bool, back: bool, logout: bool)

  function SidebarOf(s: Shell): (r: Sidebar)
    ensures r.logout
    ensures r.navigation <==> s.page != "landing"
    ensures r.back == r.navigation
  {
    var away := s.page != "landing";
    Sidebar(away, away, true)
  }

  /** Every navigation target is displayed by its own screen, whatever the
      authentication state; after logout only the landing page and the
      logout button are shown. */
  lemma NavigationShowsTarget(s: Shell, t: Target)
    ensures Render(Navigate(s, t)) == (match t
                                       case ToAdmin => AdminScreen
                                       case ToCreateUser => CreateUserScreen
                                       case ToLanding => LandingScreen)
    ensures Render(s) == Render(s.(authenticated := !s.authenticated))
    ensures Render(Logout(s)) == LandingScreen && SidebarOf(Logout(s)) == Sidebar(false, false, true)
  {
  }
}

=== FILE: auth_page.dfy ===
/** The login form of src/AuthPage.js: what `handleLogin` does with the
    answer of `validateAdminCredentials`, reached either directly (the
    local service) or through the HTTP API and its transport. */
module AuthPage {
  import opened Wrappers
  import opened ProfileStore
  import App
  import CognitoService
  import LambdaHandler
  import Provider

  /** What the awaited call did: answered with a result, or threw with a message. */
  datatype Outcome = Answered(result: CognitoService.AuthResult) | Threw(message: string)

  /** The form's state, with the stored marker and whether `onAuthSuccess` was called. */
  datatype Form = Form(error: string, loading: bool, stored: Option<App.Marker>, authenticated: bool)

  const DefaultRejection := "Invalid credentials. Please check your email and password."
  const FailedPrefix := "Authentication failed: "

  /** `handleLogin` for the entered `username`, at time `now`. */
  function HandleLogin(f: Form, username: string, outcome: Outcome, now: int): (r: Form)
    ensures !r.loading
    ensures r.authenticated <==> f.authenticated || (outcome.Answered? && outcome.result.Authenticated?)
    ensures outcome.Answered? && outcome.result.Authenticated? ==>
      r.error == "" && r.stored == Some(App.Marker(username, outcome.result.name, now))
    ensures !(outcome.Answered? && outcome.result.Authenticated?) ==> r.stored == f.stored && r.error != ""
    ensures outcome.Answered? && outcome.result.Rejected? ==>
      r.error == (if outcome.result.message != "" then outcome.result.message else DefaultRejection)
    ensures outcome.Threw? ==> r.error == FailedPrefix + outcome.message
  {
    var started := f.(loading := true, error := "");
    var done :=
      match outcome
      case Answered(Authenticated(name, _)) =>
        started.(stored := Some(App.Marker(username, name, now)), authenticated := true)
      case Answered(Rejected(message)) =>
        started.(error := if message != "" then message else DefaultRejection)
      case Threw(message) =>
        started.(error := FailedPrefix + message);
    done.(loading := false)
  }

  /** The API transport for `/auth`: a 2xx answer is read as the
      credential result (an admin body is a success, any other body has no
      `success` and reads as a rejection without a message); any other status
      throws with the body's `error`, or 'Request failed' when it has none. */
  function Transport(resp: LambdaHandler.Response): (r: Outcome)
    ensures (200 <= resp.statusCode < 300) <==> r.Answered?
    ensures r.Answered? ==> (r.result.Authenticated? <==> resp.body.Admin?)
    ensures r.Threw? && resp.body.ErrorMessage? && resp.body.error != "" ==> r.message == resp.body.error
    ensures r.Threw? && !(resp.body.ErrorMessage? && resp.body.error != "") ==> r.message == "Request failed"
    ensures r.Threw? ==> r.message != ""
  {
    if 200 <= resp.statusCode < 300 then
      if resp.body.Admin? then Answered(CognitoService.Authenticated(resp.body.name, resp.body.email))
      else Answered(CognitoService.Rejected(""))
    else if resp.body.ErrorMessage? && resp.body.error != "" then Threw(resp.body.error)
    else Threw("Request failed")
  }

  /** The `/auth` request the form sends. */
  function AuthEvent(email: string, password: string): LambdaHandler.Event {
    LambdaHandler.Event("POST", "/auth",
      LambdaHandler.Parsed(map["email" := LambdaHandler.JString(email), "password" := LambdaHandler.JString(password)]),
      None)
  }

  /** A login marker is honoured by the shell's restore for the whole
      window that starts when it is written. */
  lemma LoginThenRestore(f: Form, username: string, outcome: Outcome, now: int, later: int)
    requires outcome.Answered? && outcome.result.Authenticated?
    requires now <= later < now + App.SessionWindow
    ensures var r := HandleLogin(f, username, outcome, now);
            r.stored.Some? && App.Restore(App.Initial(r.stored), later).authenticated
  {
  }

  /** With the local service the form logs in exactly on matching
      credentials; a wrong password shows the service's own message. */
  lemma LocalLogin(f: Form, store: AdminStore, email: string, password: string, now: int)
    ensures var r := HandleLogin(f, email, Answered(CognitoService.ValidateAdminCredentials(store, email, password)), now);
            && ((r.stored != f.stored || r.error == "") <==>
                  store.Reachable? && email in store.records && store.records[email].password == password)
            && (store.Reachable? && email in store.records && store.records[email].password != password ==>
                  r.error == "Invalid password")
  {
    var v := CognitoService.ValidateAdminCredentials(store, email, password);
    if v.Authenticated? {
      assert HandleLogin(f, email, Answered(v), now).stored == Some(App.Marker(email, v.name, now));
    }
  }

  /** Through the API the form logs in on the same credentials, but a
      wrong password surfaces as a thrown 401 and so reads 'Authentication
      failed: Invalid credentials'; an unreachable store shows its error. */
  lemma ApiLogin(f: Form, p: Provider.Pool, env: Provider.Env, store: AdminStore,
                 email: string, password: string, now: int)
    ensures var h := LambdaHandler.Handle(p, env, store, AuthEvent(email, password));
            var r := HandleLogin(f, email, Transport(h.response), now);
            && ((r.error == "") <==>
                  store.Reachable? && email in store.records && store.records[email].password == password)
            && (store.Reachable? && (email !in store.records || store.records[email].password != password) ==>
                  r.error == FailedPrefix + "Invalid credentials" && r.stored == f.stored)
            && (store.Unreachable? && store.error != "" ==> r.error == FailedPrefix + store.error)
  {
    var ev := AuthEvent(email, password);
    var body := LambdaHandler.BodyFields(ev.body);
    assert LambdaHandler.Text(body, "email") == email;
    assert LambdaHandler.Field(body, "password") == Some(password);
    LambdaHandler.RoutedRequest(p, env, store, ev, LambdaHandler.AuthRoute);
  }
}

=== FILE: cognito_service.dfy ===
/** The browser-side service of src/cognitoService.js: each exported
    operation as a function of the pool and the environment, returning its
    result, the pool afterwards and the provider calls it made. */
module CognitoService {
  import opened Wrappers
  import opened Provider
  import opened Derivations
  import opened ProfileStore

  /** The well-known throwaway password `setPermanentPassword` passes through. */
  const SetupPassword := "TempSetup123!"

  /** `forcePasswordReset`'s default password. */
  const DefaultResetPassword := "TempPass123!"

  // ---------------------------------------------------------------------------
  // Listing

  /** `listUsers(searchTerm)`: one request, limit 60, filter chosen by the term. */
  function ListUsersOp(p: Pool, env: Env, searchTerm: Option<string>): (r: Run<set<string>>)
    ensures r.pool == p
    ensures r.trace == [ListUsers(ListLimit, ListFilterFor(searchTerm))]
    ensures r.result.Success? <==> ListUsers(ListLimit, ListFilterFor(searchTerm)) !in env.rejects
    ensures r.result.Success? ==>
      forall u :: u in r.result.value <==> u in p.users && PassesFilter(u, p.users[u], ListFilterFor(searchTerm))
  {
    var c := ListUsers(ListLimit, ListFilterFor(searchTerm));
    Run(ListUsersAt(p, env, ListLimit, ListFilterFor(searchTerm)), p, [c])
  }

  // ---------------------------------------------------------------------------
  // Passwords

  /** The part of `setPermanentPassword` after the force-reset, shared by
      both copies: set the throwaway temporary password, sign in with it, and
      answer NEW_PASSWORD_REQUIRED with the new password when, and only when,
      that challenge comes back. */
  function SetupAndAnswer(p: Pool, env: Env, u: string, newPassword: string): (r: Run<()>)
    ensures 1 <= |r.trace| <= 3
    ensures r.trace[0] == SetUserPassword(u, SetupPassword, false)
    ensures |r.trace| >= 2 ==> r.trace[1] == InitiateAuth(u, SetupPassword)
    ensures |r.trace| == 3 ==> r.trace[2] == RespondNewPassword(u, newPassword)
    ensures r.pool.mode == p.mode && r.pool.users.Keys == p.users.Keys
    ensures |r.trace| == 1 ==> r.result.Failure? && r.pool == p
    ensures r.result.Success? ==> |r.trace| >= 2 && u in r.pool.users
    ensures r.result.Success? && |r.trace| == 3 ==>
      r.pool.users[u].password == newPassword && !r.pool.users[u].temporary && r.pool.users[u].status == Confirmed
    ensures r.result.Success? && |r.trace| == 2 ==>
      r.pool.users[u].password == SetupPassword && r.pool.users[u].temporary
    ensures var s := SetUserPasswordAt(p, env, u, SetupPassword, false);
            s.Failure? ==> r == Run(Failure(s.error), p, [SetUserPassword(u, SetupPassword, false)])
    ensures var s := SetUserPasswordAt(p, env, u, SetupPassword, false);
            s.Success? ==>
              var a := InitiateAuthAt(s.value, env, u, SetupPassword);
              && (a.Failure? ==> r.result == Failure(a.error) && r.pool == s.value && |r.trace| == 2)
              && (a.Success? && a.value != NewPasswordRequired ==> r.result.Success? && r.pool == s.value && |r.trace| == 2)
              && (a == Success(NewPasswordRequired) ==> |r.trace| == 3)
    ensures var s := SetUserPasswordAt(p, env, u, SetupPassword, false);
            s.Success? && InitiateAuthAt(s.value, env, u, SetupPassword) == Success(NewPasswordRequired) ==>
              var n := RespondNewPasswordAt(s.value, env, u, newPassword);
              && (n.Failure? ==> r.result == Failure(n.error) && r.pool == s.value)
              && (n.Success? ==> r.result.Success? && r.pool == n.value)
  {
    var t1 := [SetUserPassword(u, SetupPassword, false)];
    match SetUserPasswordAt(p, env, u, SetupPassword, false)
    case Failure(e) => Run(Failure(e), p, t1)
    case Success(p2) =>
      var t2 := t1 + [InitiateAuth(u, SetupPassword)];
      match InitiateAuthAt(p2, env, u, SetupPassword)
      case Failure(e) => Run(Failure(e), p2, t2)
      case Success(challenge) =>
        if challenge != NewPasswordRequired then Run(Success(()), p2, t2)
        else
          var t3 := t2 + [RespondNewPassword(u, newPassword)];
          match RespondNewPasswordAt(p2, env, u, newPassword)
          case Failure(e) => Run(Failure(e), p2, t3)
          case Success(p3) => Run(Success(()), p3, t3)
  }

  /** `setPermanentPassword`: force-reset with its failure ignored, then the
      shared setup-and-answer sequence. */
  function SetPermanentPassword(p: Pool, env: Env, u: string, newPassword: string): (r: Run<()>)
    ensures 2 <= |r.trace| <= 4
    ensures r.trace[0] == ResetUserPassword(u) && r.trace[1] == SetUserPassword(u, SetupPassword, false)
    ensures |r.trace| >= 3 ==> r.trace[2] == InitiateAuth(u, SetupPassword)
    ensures |r.trace| == 4 ==> r.trace[3] == RespondNewPassword(u, newPassword)
    ensures r.result.Success? ==> |r.trace| >= 3 && u in r.pool.users && r.pool.mode == p.mode
    ensures r.result.Success? && |r.trace| == 4 ==>
      r.pool.users[u].password == newPassword && !r.pool.users[u].temporary && r.pool.users[u].status == Confirmed
    ensures r.result.Success? && |r.trace| == 3 ==>
      r.pool.users[u].password == SetupPassword && r.pool.users[u].temporary
    ensures var s := SetUserPasswordAt(p, env, u, SetupPassword, false);
            s.Failure? ==> r.result == Failure(s.error) && |r.trace| == 2
    ensures r.result == SetupAndAnswer(p, env, u, newPassword).result
    ensures r.trace == [ResetUserPassword(u)] + SetupAndAnswer(p, env, u, newPassword).trace
  {
    var reset := ResetUserPasswordAt(p, env, u);
    var p1 := if reset.Success? then reset.value else p;
    SetupAfterReset(p, env, u, newPassword);
    var tail := SetupAndAnswer(p1, env, u, newPassword);
    Run(tail.result, tail.pool, [ResetUserPassword(u)] + tail.trace)
  }

  /** The setup sequence answers and calls the same whether it starts from
      the pool as it was or from the pool after an accepted force-reset. */
  lemma SetupAfterReset(p: Pool, env: Env, u: string, newPassword: string)
    ensures var reset := ResetUserPasswordAt(p, env, u);
            var p1 := if reset.Success? then reset.value else p;
            SetupAndAnswer(p1, env, u, newPassword).result == SetupAndAnswer(p, env, u, newPassword).result
            && SetupAndAnswer(p1, env, u, newPassword).trace == SetupAndAnswer(p, env, u, newPassword).trace
  {
    if ResetUserPasswordAt(p, env, u).Success? {
      SetupIgnoresResetStatus(p, env, u, newPassword);
    }
  }

  /** With every call after the force-reset accepted, an enabled account and
      the provider answering as the account state implies, the operation
      makes all four calls and leaves exactly that account CONFIRMED with the
      new, permanent password. */
  lemma SetPermanentPasswordSucceeds(p: Pool, env: Env, u: string, newPassword: string)
    requires u in p.users && p.users[u].enabled && u !in env.challenges
    requires SetUserPassword(u, SetupPassword, false) !in env.rejects
    requires InitiateAuth(u, SetupPassword) !in env.rejects
    requires RespondNewPassword(u, newPassword) !in env.rejects
    ensures var r := SetPermanentPassword(p, env, u, newPassword);
            && r.result.Success?
            && r.trace == [ResetUserPassword(u), SetUserPassword(u, SetupPassword, false),
                           InitiateAuth(u, SetupPassword), RespondNewPassword(u, newPassword)]
            && r.pool == p.(users := p.users[u := p.users[u].(password := newPassword, temporary := false, status := Confirmed)])
  {
    var reset := ResetUserPasswordAt(p, env, u);
    var p1 := if reset.Success? then reset.value else p;
    assert p1.users[u].(password := newPassword, temporary := false, status := Confirmed)
        == p.users[u].(password := newPassword, temporary := false, status := Confirmed);
    var q := SetUserPasswordAt(p1, env, u, SetupPassword, false).value;
    assert InitiateAuthAt(q, env, u, SetupPassword) == Success(NewPasswordRequired);
  }

  /** With the provider answering as the account state implies, a successful
      `setPermanentPassword` always answered the challenge: the account holds
      the new password, permanently, and is CONFIRMED. */
  lemma SetPermanentPasswordCompletes(p: Pool, env: Env, u: string, newPassword: string)
    requires u !in env.challenges
    requires SetPermanentPassword(p, env, u, newPassword).result.Success?
    ensures var r := SetPermanentPassword(p, env, u, newPassword);
            |r.trace| == 4 && r.pool.users[u].password == newPassword
            && !r.pool.users[u].temporary && r.pool.users[u].status == Confirmed
  {
  }

  /** When the provider answers the throwaway sign-in with no challenge, the
      operation still reports success, yet the account keeps the throwaway
      temporary password and the new password is never sent. */
  lemma SetPermanentPasswordNoChallenge(p: Pool, env: Env, u: string, newPassword: string)
    requires u in p.users && p.users[u].enabled
    requires env.rejects == map[] && env.challenges == map[u := NoChallenge]
    ensures var r := SetPermanentPassword(p, env, u, newPassword);
            r.result.Success? && |r.trace| == 3
            && r.pool.users[u].password == SetupPassword && r.pool.users[u].temporary
  {
  }

  /** The setup sequence never consults the force-reset call's answer. */
  lemma SetupIgnoresResetRejection(p: Pool, env: Env, u: string, newPassword: string, msg: string)
    ensures var env' := env.(rejects := env.rejects[ResetUserPassword(u) := msg]);
            SetupAndAnswer(p, env', u, newPassword) == SetupAndAnswer(p, env, u, newPassword)
  {
    var env' := env.(rejects := env.rejects[ResetUserPassword(u) := msg]);
    assert SetUserPasswordAt(p, env', u, SetupPassword, false) == SetUserPasswordAt(p, env, u, SetupPassword, false);
    var s := SetUserPasswordAt(p, env, u, SetupPassword, false);
    if s.Success? {
      assert InitiateAuthAt(s.value, env, u, SetupPassword) == InitiateAuthAt(s.value, env', u, SetupPassword);
      assert RespondNewPasswordAt(s.value, env, u, newPassword) == RespondNewPasswordAt(s.value, env', u, newPassword);
    }
  }

  /** The setup sequence does not depend on whether the account's status was
      moved to RESET_REQUIRED first: the same answers and calls, and, once the
      temporary password is set, the same pool. */
  lemma SetupIgnoresResetStatus(p: Pool, env: Env, u: string, newPassword: string)
    requires u in p.users
    ensures var q := p.(users := p.users[u := p.users[u].(status := ResetRequired)]);
            var r, r' := SetupAndAnswer(q, env, u, newPassword), SetupAndAnswer(p, env, u, newPassword);
            r.result == r'.result && r.trace == r'.trace
            && (SetUserPassword(u, SetupPassword, false) !in env.rejects ==> r.pool == r'.pool)
  {
    var q := p.(users := p.users[u := p.users[u].(status := ResetRequired)]);
    var a' := p.users[u].(password := SetupPassword, temporary := true, status := ForceChangePassword);
    assert q.users[u].(password := SetupPassword, temporary := true, status := ForceChangePassword) == a';
    assert q.users[u := a'] == p.users[u := a'];
    assert SetUserPasswordAt(q, env, u, SetupPassword, false).Success?
       ==> SetUserPasswordAt(q, env, u, SetupPassword, false) == SetUserPasswordAt(p, env, u, SetupPassword, false);
  }

  /** Whether the force-reset step succeeds or is rejected makes no difference
      to the result, the calls made, or (once the temporary password is set) the pool. */
  lemma ResetOutcomeIrrelevant(p: Pool, env: Env, u: string, newPassword: string)
    requires u in p.users
    ensures var env' := env.(rejects := env.rejects[ResetUserPassword(u) := "rejected"]);
            var r, r' := SetPermanentPassword(p, env, u, newPassword), SetPermanentPassword(p, env', u, newPassword);
            r.result == r'.result && r.trace == r'.trace
            && (SetUserPassword(u, SetupPassword, false) !in env.rejects ==> r.pool == r'.pool)
  {
    var env' := env.(rejects := env.rejects[ResetUserPassword(u) := "rejected"]);
    SetupIgnoresResetRejection(p, env, u, newPassword, "rejected");
    var tail' := SetupAndAnswer(p, env', u, newPassword);
    assert SetPermanentPassword(p, env', u, newPassword) == Run(tail'.result, tail'.pool, [ResetUserPassword(u)] + tail'.trace);
    if ResetUserPasswordAt(p, env, u).Success? {
      SetupIgnoresResetStatus(p, env, u, newPassword);
    } else {
      SetupIgnoresResetRejection(p, env, u, newPassword, env.rejects[ResetUserPassword(u)]);
      assert env.(rejects := env.rejects[ResetUserPassword(u) := env.rejects[ResetUserPassword(u)]]) == env;
    }
  }

  /** `forcePasswordReset(username, newPassword = 'TempPass123!')`: one call
      making the given password (or the default when none is passed) the
      account's temporary password. An empty string is passed through as is. */
  function ForcePasswordReset(p: Pool, env: Env, u: string, newPassword: Option<string>): (r: Run<()>)
    ensures r.trace == [SetUserPassword(u, newPassword.GetOr(DefaultResetPassword), false)]
    ensures r.result.Success? <==> SetUserPassword(u, newPassword.GetOr(DefaultResetPassword), false) !in env.rejects && u in p.users
    ensures r.result.Success? ==> r.pool.users.Keys == p.users.Keys && r.pool.mode == p.mode
    ensures r.result.Success? ==> r.pool.users[u].password == newPassword.GetOr(DefaultResetPassword)
                                  && r.pool.users[u].temporary && r.pool.users[u].status == ForceChangePassword
    ensures r.result.Success? ==> forall x :: x in p.users && x != u ==> r.pool.users[x] == p.users[x]
    ensures r.result.Failure? ==> r.pool == p
  {
    var pw := newPassword.GetOr(DefaultResetPassword);
    match SetUserPasswordAt(p, env, u, pw, false)
    case Failure(e) => Run(Failure(e), p, [SetUserPassword(u, pw, false)])
    case Success(p1) => Run(Success(()), p1, [SetUserPassword(u, pw, false)])
  }

  /** After a forced reset, the next sign-in with that password meets the
      NEW_PASSWORD_REQUIRED challenge. */
  lemma ForcePasswordResetForcesChange(p: Pool, env: Env, u: string, pw: string)
    requires env.rejects == map[] && env.challenges == map[]
    requires u in p.users && p.users[u].enabled
    ensures var r := ForcePasswordReset(p, env, u, Some(pw));
            InitiateAuthAt(r.pool, env, u, pw) == Success(NewPasswordRequired)
  {
  }

  // ---------------------------------------------------------------------------
  // Per-user MFA preference and pool configuration

  /** `enableTOTPMFA`: software token enabled and preferred; SMS untouched. */
  function EnableTotpMfa(p: Pool, env: Env, u: string): (r: Run<()>)
    ensures r.trace == [SetMfaPreference(u, Some(MfaSetting(true, true)), None)]
    ensures r.result.Success? <==> SetMfaPreference(u, Some(MfaSetting(true, true)), None) !in env.rejects && u in p.users
    ensures r.result.Success? ==>
      u in p.users && r.pool == p.(users := p.users[u := p.users[u].(totp := MfaSetting(true, true))])
    ensures r.result.Failure? ==> r.pool == p
  {
    var c := SetMfaPreference(u, Some(MfaSetting(true, true)), None);
    match SetMfaPreferenceAt(p, env, u, Some(MfaSetting(true, true)), None)
    case Failure(e) => Run(Failure(e), p, [c])
    case Success(p1) => Run(Success(()), p1, [c])
  }

  /** `disableTOTPMFA`: software token and SMS both disabled. */
  function DisableTotpMfa(p: Pool, env: Env, u: string): (r: Run<()>)
    ensures r.trace == [SetMfaPreference(u, Some(MfaOff), Some(MfaOff))]
    ensures r.result.Success? <==> SetMfaPreference(u, Some(MfaOff), Some(MfaOff)) !in env.rejects && u in p.users
    ensures r.result.Success? ==>
      u in p.users && r.pool == p.(users := p.users[u := p.users[u].(totp := MfaOff, sms := MfaOff)])
    ensures r.result.Failure? ==> r.pool == p
  {
    var c := SetMfaPreference(u, Some(MfaOff), Some(MfaOff));
    match SetMfaPreferenceAt(p, env, u, Some(MfaOff), Some(MfaOff))
    case Failure(e) => Run(Failure(e), p, [c])
    case Success(p1) => Run(Success(()), p1, [c])
  }

  /** After enabling, the user's derived status is active with TOTP raised. */
  lemma EnableThenStatusActive(p: Pool, env: Env, u: string)
    requires EnableTotpMfa(p, env, u).result.Success?
    ensures var a := EnableTotpMfa(p, env, u).pool.users[u];
            AccountMfaStatus(a).mfaActive && AccountMfaStatus(a).totpEnabled
  {
    AccountMfaStatusReflectsSettings(EnableTotpMfa(p, env, u).pool.users[u]);
  }

  /** Disabling is idempotent: a second disable succeeds and changes nothing;
      and on an account whose methods are already off, the first one changes nothing. */
  lemma DisableTotpMfaIdempotent(p: Pool, env: Env, u: string)
    requires DisableTotpMfa(p, env, u).result.Success?
    ensures var r := DisableTotpMfa(p, env, u);
            DisableTotpMfa(r.pool, env, u).result.Success? && DisableTotpMfa(r.pool, env, u).pool == r.pool
    ensures p.users[u].totp == MfaOff && p.users[u].sms == MfaOff ==> DisableTotpMfa(p, env, u).pool == p
  {
    var r := DisableTotpMfa(p, env, u);
    assert r.pool.users[u].(totp := MfaOff, sms := MfaOff) == r.pool.users[u];
    if p.users[u].totp == MfaOff && p.users[u].sms == MfaOff {
      assert p.users[u].(totp := MfaOff, sms := MfaOff) == p.users[u];
    }
  }

  /** `getUserPoolMFAConfig`: a read of the pool's mode and enabled methods. */
  function GetUserPoolMfaConfig(p: Pool, env: Env): (r: Run<PoolConfig>)
    ensures r.pool == p && r.trace == [DescribePool]
    ensures r.result.Success? <==> DescribePool !in env.rejects
    ensures r.result.Success? ==> r.result.value.mode == p.mode
  {
    Run(DescribePoolAt(p, env), p, [DescribePool])
  }

  /** `updateUserPoolMFAConfig(mode)`: whatever the mode, the pool's software
      token switch is written as enabled; no account changes. */
  function UpdateUserPoolMfaConfig(p: Pool, env: Env, mode: PoolMode): (r: Run<()>)
    ensures r.trace == [SetPoolMfa(mode, true)]
    ensures r.result.Success? <==> SetPoolMfa(mode, true) !in env.rejects
    ensures r.pool.users == p.users
    ensures r.result.Success? ==> r.pool.mode == mode && r.pool.softwareToken
    ensures r.result.Failure? ==> r.pool == p
  {
    match SetPoolMfaAt(p, env, mode, true)
    case Failure(e) => Run(Failure(e), p, [SetPoolMfa(mode, true)])
    case Success(p1) => Run(Success(()), p1, [SetPoolMfa(mode, true)])
  }

  /** Reading the configuration back after a successful update reports the
      mode just written, with the software token among the enabled methods. */
  lemma ConfigReadAfterUpdate(p: Pool, env: Env, mode: PoolMode)
    requires UpdateUserPoolMfaConfig(p, env, mode).result.Success?
    requires DescribePool !in env.rejects
    ensures var q := UpdateUserPoolMfaConfig(p, env, mode).pool;
            GetUserPoolMfaConfig(q, env).result == Success(PoolConfig(mode, ["SOFTWARE_TOKEN_MFA"]))
  {
  }

  // ---------------------------------------------------------------------------
  // Simple account calls

  function DeleteUserOp(p: Pool, env: Env, u: string): (r: Run<()>)
    ensures r.trace == [DeleteUser(u)]
    ensures r.result.Success? <==> u in p.users && DeleteUser(u) !in env.rejects
    ensures r.result.Success? ==> r.pool == p.(users := p.users - {u})
    ensures r.result.Failure? ==> r.pool == p
  {
    match DeleteUserAt(p, env, u)
    case Failure(e) => Run(Failure(e), p, [DeleteUser(u)])
    case Success(p1) => Run(Success(()), p1, [DeleteUser(u)])
  }

  /** `enableUser` / `disableUser`: only the account's enabled flag changes. */
  function SetUserEnabled(p: Pool, env: Env, u: string, enabled: bool): (r: Run<()>)
    ensures r.trace == [if enabled then EnableUser(u) else DisableUser(u)]
    ensures r.result.Success? <==> (if enabled then EnableUser(u) else DisableUser(u)) !in env.rejects && u in p.users
    ensures r.result.Success? ==> r.pool == p.(users := p.users[u := p.users[u].(enabled := enabled)])
    ensures r.result.Success? ==> u in p.users && u in r.pool.users && r.pool.users[u] == p.users[u].(enabled := enabled)
    ensures r.result.Success? ==> forall x :: x in p.users && x != u ==> x in r.pool.users && r.pool.users[x] == p.users[x]
    ensures r.result.Failure? ==> r.pool == p
  {
    var c := if enabled then EnableUser(u) else DisableUser(u);
    match SetEnabledAt(p, env, u, enabled)
    case Failure(e) => Run(Failure(e), p, [c])
    case Success(p1) => Run(Success(()), p1, [c])
  }

  /** Enabling and disabling undo each other: switching an existing user to
      the other state and back restores the pool, and switching to the state
      it already has changes nothing. */
  lemma SetUserEnabledRoundTrip(p: Pool, env: Env, u: string, enabled: bool)
    requires u in p.users
    requires EnableUser(u) !in env.rejects && DisableUser(u) !in env.rejects
    ensures var q := SetUserEnabled(p, env, u, !p.users[u].enabled).pool;
            SetUserEnabled(q, env, u, p.users[u].enabled).pool == p
    ensures p.users[u].enabled == enabled ==> SetUserEnabled(p, env, u, enabled).pool == p
  {
    var q := SetUserEnabled(p, env, u, !p.users[u].enabled).pool;
    assert q.users[u] == p.users[u].(enabled := !p.users[u].enabled);
    assert q.users[u := q.users[u].(enabled := p.users[u].enabled)] == p.users;
    assert p.users[u].enabled == enabled ==> p.users[u := p.users[u].(enabled := enabled)] == p.users;
  }

  // ---------------------------------------------------------------------------
  // MFA status

  /** `getUserMFAStatus(username, poolConfig)`: with a cached mode of ON,
      everyone is reported active without a lookup; otherwise the account is
      read and its status derived; any lookup error reports all-false. Never fails. */
  function GetUserMfaStatus(p: Pool, env: Env, u: string, config: Option<PoolConfig>): (r: Run<MfaStatus>)
    ensures r.result.Success? && r.pool == p
    ensures config.Some? && config.value.mode == On ==> r.result.value == RequiredStatus && r.trace == []
    ensures !(config.Some? && config.value.mode == On) ==> r.trace == [GetUser(u)]
    ensures !(config.Some? && config.value.mode == On) && GetUserAt(p, env, u).Failure? ==>
      r.result.value == UnknownStatus
    ensures !(config.Some? && config.value.mode == On) && GetUserAt(p, env, u).Success? ==>
      r.result.value == ClientMfaStatus(SettingList(p.users[u]), p.users[u].mfaOptions)
  {
    if config.Some? && config.value.mode == On then Run(Success(RequiredStatus), p, [])
    else
      match GetUserAt(p, env, u)
      case Failure(_) => Run(Success(UnknownStatus), p, [GetUser(u)])
      case Success(a) => Run(Success(AccountMfaStatus(a)), p, [GetUser(u)])
  }

  // ---------------------------------------------------------------------------
  // Create and recreate

  /** What `createUserSimple` hands back: the new username and the temporary password. */
  datatype Created = Created(username: string, tempPassword: string)

  /** `createUserSimple`: create the account under its email with the
      notification suppressed, then set the pool mode to ON. A failed create
      makes no pool write. */
  function CreateUserSimple(p: Pool, env: Env, email: string, name: string, company: string, temp: string): (r: Run<Created>)
    ensures 1 <= |r.trace| <= 2
    ensures r.trace[0] == CreateUser(email, NewUserAttributes(email, name, company), temp, true)
    ensures |r.trace| == 2 ==> r.trace[1] == SetPoolMfa(On, true)
    ensures |r.trace| == 1 ==> r.result.Failure? && r.pool == p
    ensures |r.trace| == 2 ==>
      email !in p.users && r.pool.users == p.users[email := NewAccount(NewUserAttributes(email, name, company), temp)]
    ensures r.result.Success? ==> r.result.value == Created(email, temp) && r.pool.mode == On && r.pool.softwareToken
    ensures r.result.Success? <==>
      CreateUser(email, NewUserAttributes(email, name, company), temp, true) !in env.rejects
      && email !in p.users && SetPoolMfa(On, true) !in env.rejects
    ensures var c := CreateUserAt(p, env, email, NewUserAttributes(email, name, company), temp, true);
            && (c.Failure? ==> r == Run(Failure(c.error), p, [CreateUser(email, NewUserAttributes(email, name, company), temp, true)]))
            && (c.Success? ==> |r.trace| == 2)
            && (c.Success? && SetPoolMfa(On, true) in env.rejects ==>
                  r.result == Failure(env.rejects[SetPoolMfa(On, true)]) && r.pool == c.value)
  {
    var attrs := NewUserAttributes(email, name, company);
    var t1 := [CreateUser(email, attrs, temp, true)];
    match CreateUserAt(p, env, email, attrs, temp, true)
    case Failure(e) => Run(Failure(e), p, t1)
    case Success(p1) =>
      var t2 := t1 + [SetPoolMfa(On, true)];
      match SetPoolMfaAt(p1, env, On, true)
      case Failure(e) => Run(Failure(e), p1, t2)
      case Success(p2) => Run(Success(Created(email, temp)), p2, t2)
  }

  /** The calls `recreateUser` makes when every step succeeds, in order. */
  function RecreatePlan(u: string, prof: Profile, temp: string, poolWrite: bool): seq<Call> {
    [GetUser(u), DeleteUser(u)]
    + (if poolWrite then [SetPoolMfa(On, true)] else [])
    + [CreateUser(prof.email, NewUserAttributes(prof.email, prof.name, prof.company), temp, true)]
  }

  /** `recreateUser`: read the account, delete it, set the pool mode to ON,
      and create it again under its email (falling back to the old username)
      with email, email_verified and the non-empty name / company. */
  function RecreateUser(p: Pool, env: Env, u: string, temp: string): (r: Run<Account>)
    ensures 1 <= |r.trace| <= 4
    ensures u in p.users ==> r.trace == RecreatePlan(u, ProfileOf(p.users[u].attributes, u), temp, true)[..|r.trace|]
    ensures |r.trace| == 1 ==> r.result.Failure? && r.pool == p && r.trace == [GetUser(u)]
    ensures |r.trace| == 2 ==> r.result.Failure? && r.pool == p
    ensures |r.trace| >= 3 ==> u in p.users && (u in r.pool.users ==> u == ProfileOf(p.users[u].attributes, u).email)
    ensures r.result.Failure? && |r.trace| >= 3 ==> u !in r.pool.users
    ensures r.result.Success? ==> |r.trace| == 4 && r.pool.mode == On && r.pool.softwareToken
    ensures r.result.Success? ==>
      var prof := ProfileOf(p.users[u].attributes, u);
      && prof.email in r.pool.users
      && r.result.value == NewAccount(NewUserAttributes(prof.email, prof.name, prof.company), temp)
      && r.pool.users == (p.users - {u})[prof.email := r.result.value]
    ensures GetUserAt(p, env, u).Failure? ==> r == Run(Failure(GetUserAt(p, env, u).error), p, [GetUser(u)])
    ensures GetUserAt(p, env, u).Success? && DeleteUser(u) in env.rejects ==>
      r == Run(Failure(env.rejects[DeleteUser(u)]), p, [GetUser(u), DeleteUser(u)])
    ensures GetUserAt(p, env, u).Success? && DeleteUser(u) !in env.rejects && SetPoolMfa(On, true) in env.rejects ==>
      r.result == Failure(env.rejects[SetPoolMfa(On, true)]) && |r.trace| == 3 && r.pool == p.(users := p.users - {u})
    ensures u in p.users ==>
      var prof := ProfileOf(p.users[u].attributes, u);
      (r.result.Success? <==>
         GetUser(u) !in env.rejects && DeleteUser(u) !in env.rejects && SetPoolMfa(On, true) !in env.rejects
         && CreateUser(prof.email, NewUserAttributes(prof.email, prof.name, prof.company), temp, true) !in env.rejects
         && (prof.email == u || prof.email !in p.users))
  {
    var t0 := [GetUser(u)];
    match GetUserAt(p, env, u)
    case Failure(e) => Run(Failure(e), p, t0)
    case Success(current) =>
      var prof := ProfileOf(current.attributes, u);
      var attrs := NewUserAttributes(prof.email, prof.name, prof.company);
      var t1 := t0 + [DeleteUser(u)];
      match DeleteUserAt(p, env, u)
      case Failure(e) => Run(Failure(e), p, t1)
      case Success(p1) =>
        var t2 := t1 + [SetPoolMfa(On, true)];
        match SetPoolMfaAt(p1, env, On, true)
        case Failure(e) => Run(Failure(e), p1, t2)
        case Success(p2) =>
          var t3 := t2 + [CreateUser(prof.email, attrs, temp, true)];
          match CreateUserAt(p2, env, prof.email, attrs, temp, true)
          case Failure(e) => Run(Failure(e), p2, t3)
          case Success(p3) => Run(Success(p3.users[prof.email]), p3, t3)
  }

  /** The recreated account keeps the old email (or the old username), name
      and company, and starts with no MFA method enabled and a temporary password. */
  lemma RecreatePreservesIdentity(p: Pool, env: Env, u: string, temp: string)
    requires RecreateUser(p, env, u, temp).result.Success?
    ensures var r := RecreateUser(p, env, u, temp);
            var before := ProfileOf(p.users[u].attributes, u);
            var renewed := r.result.value;
            && ProfileOf(renewed.attributes, u) == before
            && AccountMfaStatus(renewed) == UnknownStatus
            && renewed.temporary && renewed.password == temp && renewed.status == ForceChangePassword
  {
    var r := RecreateUser(p, env, u, temp);
    var before := ProfileOf(p.users[u].attributes, u);
    ProfileStable(p.users[u].attributes, u);
    AccountMfaStatusReflectsSettings(r.result.value);
  }

  /** When the account's email names a different, existing account, the
      recreate fails after the delete: the original account is gone and nothing replaced it. */
  lemma RecreateIntoTakenEmail(p: Pool, env: Env, u: string, temp: string)
    requires env.rejects == map[]
    requires u in p.users
    requires ProfileOf(p.users[u].attributes, u).email != u
    requires ProfileOf(p.users[u].attributes, u).email in p.users
    ensures var r := RecreateUser(p, env, u, temp);
            r.result == Failure(UserExists) && u !in r.pool.users && |r.trace| == 4
  {
  }

  // ---------------------------------------------------------------------------
  // Admin credentials

  datatype AuthResult = Authenticated(name: string, email: string) | Rejected(message: string)

  /** `validateAdminCredentials`: a store error, a missing record and a
      password mismatch each give their own message; a match gives the
      record's email and name, the name defaulting to 'Admin'. */
  function ValidateAdminCredentials(store: AdminStore, email: string, password: string): (r: AuthResult)
    ensures store.Unreachable? ==> r == Rejected("Authentication service error")
    ensures store.Reachable? && email !in store.records ==> r == Rejected("Admin not found")
    ensures r.Authenticated? <==> store.Reachable? && email in store.records && store.records[email].password == password
    ensures r.Authenticated? ==>
      r.email == store.records[email].email && r.name == (if store.records[email].name != "" then store.records[email].name else "Admin")
    ensures store.Reachable? && email in store.records && store.records[email].password != password ==>
      r == Rejected("Invalid password")
  {
    match store
    case Unreachable(_) => Rejected("Authentication service error")
    case Reachable(records) =>
      if email !in records then Rejected("Admin not found")
      else if records[email].password == password then
        Authenticated(if records[email].name != "" then records[email].name else "Admin", records[email].email)
      else Rejected("Invalid password")
  }
}

=== FILE: create_user_page.dfy ===
/** The four-step create-user wizard of src/CreateUserPage.js: details,
    additional info, review, success; and the local create path it uses
    when no API is configured. */
module CreateUserPage {
  import opened Wrappers
  import opened Provider
  import opened Derivations
  import CognitoService

  /** The form fields. `username` is never filled in by any step. */
  datatype UserData = UserData(email: string, tempPassword: string, username: string, company: string, name: string)

  const EmptyData := UserData("", "", "", "", "")

  /** What the success step shows. */
  datatype CreatedRecord = CreatedRecord(email: string, name: string, company: string, tempPassword: string, username: string)

  datatype Wizard = Wizard(step: int, data: UserData, created: Option<CreatedRecord>, message: string, loading: bool)

  const FillAll := "Please fill in all fields"
  const CreatedMessage := "User created successfully!"

  /** The initial wizard. */
  const Start := Wizard(1, EmptyData, None, "", false)

  /** `handleStep1Submit`: on to step 2 only with an email and a temporary password. */
  function Step1Submit(w: Wizard): (r: Wizard)
    ensures r.data == w.data && r.created == w.created && r.loading == w.loading
    ensures w.data.email == "" || w.data.tempPassword == "" ==> r.step == w.step && r.message == FillAll
    ensures w.data.email != "" && w.data.tempPassword != "" ==> r.step == 2 && r.message == ""
  {
    if w.data.email == "" || w.data.tempPassword == "" then w.(message := FillAll)
    else w.(message := "", step := 2)
  }

  /** `handleStep2Submit`: on to step 3 only with a company and a name. */
  function Step2Submit(w: Wizard): (r: Wizard)
    ensures r.data == w.data && r.created == w.created && r.loading == w.loading
    ensures w.data.company == "" || w.data.name == "" ==> r.step == w.step && r.message == FillAll
    ensures w.data.company != "" && w.data.name != "" ==> r.step == 3 && r.message == ""
  {
    if w.data.company == "" || w.data.name == "" then w.(message := FillAll)
    else w.(message := "", step := 3)
  }

  /** The Back button of step 2. */
  function BackTo1(w: Wizard): (r: Wizard)
    ensures r.step == 1 && r.data == w.data && r.created == w.created && r.message == w.message
  {
    w.(step := 1)
  }

  /** The Back button of step 3. */
  function BackTo2(w: Wizard): (r: Wizard)
    ensures r.step == 2 && r.data == w.data && r.created == w.created && r.message == w.message
  {
    w.(step := 2)
  }

  /** `handleCreateUser`, given what the create call returned: on success,
      step 4 with the entered details and the returned temporary password and
      username; on an error, the same step and the error. Loading ends false either way. */
  function HandleCreateUser(w: Wizard, outcome: Result<CognitoService.Created>): (r: Wizard)
    ensures !r.loading && r.data == w.data
    ensures outcome.Success? ==>
      r.step == 4 && r.message == CreatedMessage
      && r.created == Some(CreatedRecord(w.data.email, w.data.name, w.data.company,
                                         outcome.value.tempPassword, outcome.value.username))
    ensures outcome.Failure? ==>
      r.step == w.step && r.created == w.created && r.message == "Error creating user: " + outcome.error
  {
    match outcome
    case Success(c) =>
      var record := CreatedRecord(w.data.email, w.data.name, w.data.company, c.tempPassword, c.username);
      w.(created := Some(record), message := CreatedMessage, step := 4, loading := false)
    case Failure(e) => w.(message := "Error creating user: " + e, loading := false)
  }

  /** `resetForm`: back to the start, every field emptied. */
  function ResetForm(w: Wizard): (r: Wizard)
    ensures r.step == 1 && r.data == EmptyData && r.created.None? && r.message == ""
  {
    w.(step := 1, data := EmptyData, created := None, message := "")
  }

  /** The local `createUser`: `createUserSimple`, then the pool mode written ON
      a second time. */
  function LocalCreateUser(p: Pool, env: Env, email: string, name: string, company: string, temp: string): (r: Run<CognitoService.Created>)
    ensures var s := CognitoService.CreateUserSimple(p, env, email, name, company, temp);
            && (s.result.Failure? ==> r == s)
            && (s.result.Success? ==> r.trace == s.trace + [SetPoolMfa(On, true)])
    ensures r.result.Success? ==>
      r.result.value == CognitoService.Created(email, temp) && r.pool.mode == On && r.pool.softwareToken
      && |r.trace| == 3 && r.trace[1] == r.trace[2] == SetPoolMfa(On, true)
      && r.pool.users == p.users[email := NewAccount(NewUserAttributes(email, name, company), temp)]
    ensures CognitoService.CreateUserSimple(p, env, email, name, company, temp).result.Success? ==>
      (r.result.Success? <==> SetPoolMfa(On, true) !in env.rejects) && r.pool.mode == On
  {
    var s := CognitoService.CreateUserSimple(p, env, email, name, company, temp);
    match s.result
    case Failure(_) => s
    case Success(c) =>
      var w := CognitoService.UpdateUserPoolMfaConfig(s.pool, env, On);
      match w.result
      case Failure(e) => Run(Failure(e), w.pool, s.trace + w.trace)
      case Success(_) => Run(Success(c), w.pool, s.trace + w.trace)
  }

  /** The state the wizard can be in: each step past the first has the
      fields its predecessors insisted on, and the success step holds a record. */
  predicate Reached(w: Wizard) {
    1 <= w.step <= 4
    && (w.step >= 2 ==> w.data.email != "" && w.data.tempPassword != "")
    && (w.step >= 3 ==> w.data.company != "" && w.data.name != "")
    && (w.step == 4 ==> w.created.Some?)
  }

  /** Every transition, taken from the step whose view offers it, keeps the
      wizard in a reachable state. */
  lemma TransitionsKeepReached(w: Wizard, outcome: Result<CognitoService.Created>)
    requires Reached(w)
    ensures w.step == 1 ==> Reached(Step1Submit(w))
    ensures w.step == 2 ==> Reached(Step2Submit(w)) && Reached(BackTo1(w))
    ensures w.step == 3 ==> Reached(BackTo2(w)) && Reached(HandleCreateUser(w, outcome))
    ensures Reached(ResetForm(w)) && Reached(Start)
  {
  }

  /** A local create reached through the wizard shows back exactly what was
      entered: the username is the email, the password the one typed at step 1. */
  lemma LocalCreateRoundTrip(w: Wizard, p: Pool, env: Env)
    requires w.step == 3
    requires LocalCreateUser(p, env, w.data.email, w.data.name, w.data.company, w.data.tempPassword).result.Success?
    ensures var run := LocalCreateUser(p, env, w.data.email, w.data.name, w.data.company, w.data.tempPassword);
            var r := HandleCreateUser(w, run.result);
            r.step == 4
            && r.created == Some(CreatedRecord(w.data.email, w.data.name, w.data.company, w.data.tempPassword, w.data.email))
            && run.pool.users[w.data.email].password == w.data.tempPassword
  {
  }
}

=== FILE: derivations.dfy ===
/** Pure derivations shared by the browser-side service and the Lambda:
    the attribute list a new account is created with and its read-back,
    the `listUsers` filter choice, and the MFA status read off an account. */
module Derivations {
  import opened Wrappers
  import opened Provider

  // ---------------------------------------------------------------------------
  // Attribute list construction and extraction

  /** The attributes a (re)created account carries: email, email_verified,
      and name / profile (the company) only when non-empty. */
  function NewUserAttributes(email: string, name: string, company: string): (r: seq<Attr>)
    ensures FindAttr(r, "email") == Some(email)
    ensures FindAttr(r, "email_verified") == Some("true")
    ensures FindAttr(r, "name") == (if name != "" then Some(name) else None)
    ensures FindAttr(r, "profile") == (if company != "" then Some(company) else None)
    ensures |r| == 2 + (if name != "" then 1 else 0) + (if company != "" then 1 else 0)
    ensures r[0] == Attr("email", email) && r[1] == Attr("email_verified", "true")
    ensures name != "" ==> r[2] == Attr("name", name)
    ensures company != "" ==> r[|r| - 1] == Attr("profile", company)
  {
    var e, v := Attr("email", email), Attr("email_verified", "true");
    if name != "" && company != "" then
      var r := [e, v, Attr("name", name), Attr("profile", company)];
      assert r[1..][1..][1..] == [Attr("profile", company)];
      assert FindAttr(r[1..][1..], "profile") == Some(company);
      assert FindAttr(r[1..][1..], "name") == Some(name);
      r
    else if name != "" then
      var r := [e, v, Attr("name", name)];
      assert r[1..][1..][1..] == [];
      assert FindAttr(r[1..][1..], "name") == Some(name);
      r
    else if company != "" then
      var r := [e, v, Attr("profile", company)];
      assert r[1..][1..][1..] == [];
      assert FindAttr(r[1..][1..], "name") == None;
      r
    else
      var r := [e, v];
      assert r[1..][1..] == [];
      r
  }

  /** What a recreate reads off an existing account before deleting it. */
  datatype Profile = Profile(email: string, name: string, company: string)

  /** email falls back to the username, name and company to the empty string. */
  function ProfileOf(attrs: seq<Attr>, username: string): (p: Profile)
    ensures p.email == (if FindAttr(attrs, "email").Some? && FindAttr(attrs, "email").value != ""
                        then FindAttr(attrs, "email").value else username)
    ensures p.name == (if FindAttr(attrs, "name").Some? then FindAttr(attrs, "name").value else "")
    ensures p.company == (if FindAttr(attrs, "profile").Some? then FindAttr(attrs, "profile").value else "")
  {
    Profile(AttrOr(attrs, "email", username), AttrOr(attrs, "name", ""), AttrOr(attrs, "profile", ""))
  }

  /** Reading back a freshly built attribute list returns what was put in,
      the email falling back to the username only when it was empty. */
  lemma ProfileOfNewAttributes(email: string, name: string, company: string, username: string)
    ensures ProfileOf(NewUserAttributes(email, name, company), username)
         == Profile(if email != "" then email else username, name, company)
  {
  }

  /** Rebuilding an account from its own profile changes nothing about the
      profile: a second recreate preserves what the first one preserved. */
  lemma ProfileStable(attrs: seq<Attr>, username: string)
    ensures var p := ProfileOf(attrs, username);
            ProfileOf(NewUserAttributes(p.email, p.name, p.company), username) == p
  {
    var p := ProfileOf(attrs, username);
    ProfileOfNewAttributes(p.email, p.name, p.company, username);
  }

  // ---------------------------------------------------------------------------
  // listUsers filter choice

  /** The page size of every `listUsers` request. */
  const ListLimit: nat := 60

  /** `if (searchTerm)`: a present, non-empty term filters on email when it
      contains '@' and on username otherwise. */
  function ListFilterFor(searchTerm: Option<string>): (f: Option<ListFilter>)
    ensures f.None? <==> searchTerm == None || searchTerm == Some("")
    ensures f.Some? ==> f.value.term == searchTerm.value
    ensures f.Some? ==> (f.value.EmailIs? <==> '@' in searchTerm.value)
  {
    match searchTerm
    case None => None
    case Some(t) =>
      if t == "" then None
      else if '@' in t then Some(EmailIs(t))
      else Some(UsernameIs(t))
  }

  /** A search term with '@' lists exactly the accounts whose email attribute
      is the term; any other non-empty term lists at most the account named by it. */
  lemma ListingBySearchTerm(p: Pool, env: Env, t: string)
    requires t != ""
    requires ListUsersAt(p, env, ListLimit, ListFilterFor(Some(t))).Success?
    ensures var names := ListUsersAt(p, env, ListLimit, ListFilterFor(Some(t))).value;
            if '@' in t then forall u :: u in names <==> u in p.users && FindAttr(p.users[u].attributes, "email") == Some(t)
            else names <= {t}
  {
  }

  // ---------------------------------------------------------------------------
  // MFA status

  datatype MfaStatus = MfaStatus(mfaActive: bool, totpEnabled: bool, smsEnabled: bool)

  /** What is reported when the pool mode is ON, without looking at the user. */
  const RequiredStatus := MfaStatus(true, true, false)

  /** What is reported when the user cannot be read. */
  const UnknownStatus := MfaStatus(false, false, false)

  /** The browser-side derivation from `UserMFASettingList` and the delivery
      media of `MFAOptions`: a matching legacy option also raises a flag. */
  function ClientMfaStatus(settings: seq<string>, options: seq<string>): (s: MfaStatus)
    ensures s.mfaActive <==> "SOFTWARE_TOKEN_MFA" in settings || "SMS_MFA" in settings || |options| > 0
    ensures s.totpEnabled <==> "SOFTWARE_TOKEN_MFA" in settings || "SOFTWARE_TOKEN_MFA" in options
    ensures s.smsEnabled <==> "SMS_MFA" in settings || "SMS" in options
  {
    var totp := "SOFTWARE_TOKEN_MFA" in settings;
    var sms := "SMS_MFA" in settings;
    MfaStatus(totp || sms || |options| > 0, totp || "SOFTWARE_TOKEN_MFA" in options, sms || "SMS" in options)
  }

  /** The Lambda's derivation: the same `mfaActive`, but legacy options raise no flag. */
  function LambdaMfaStatus(settings: seq<string>, options: seq<string>): (s: MfaStatus)
    ensures s.mfaActive <==> "SOFTWARE_TOKEN_MFA" in settings || "SMS_MFA" in settings || |options| > 0
    ensures s.totpEnabled <==> "SOFTWARE_TOKEN_MFA" in settings
    ensures s.smsEnabled <==> "SMS_MFA" in settings
  {
    var totp := "SOFTWARE_TOKEN_MFA" in settings;
    var sms := "SMS_MFA" in settings;
    MfaStatus(totp || sms || |options| > 0, totp, sms)
  }

  /** A raised method flag always comes with `mfaActive`, in both copies. */
  lemma FlagImpliesActive(settings: seq<string>, options: seq<string>)
    ensures var s := ClientMfaStatus(settings, options);
            (s.totpEnabled || s.smsEnabled) ==> s.mfaActive
    ensures var s := LambdaMfaStatus(settings, options);
            (s.totpEnabled || s.smsEnabled) ==> s.mfaActive
  {
  }

  /** The two copies agree on `mfaActive`; the Lambda's flags are never raised
      when the browser's are not, and they differ exactly on legacy options. */
  lemma CopiesAgreeOnActive(settings: seq<string>, options: seq<string>)
    ensures ClientMfaStatus(settings, options).mfaActive == LambdaMfaStatus(settings, options).mfaActive
    ensures LambdaMfaStatus(settings, options).totpEnabled ==> ClientMfaStatus(settings, options).totpEnabled
    ensures LambdaMfaStatus(settings, options).smsEnabled ==> ClientMfaStatus(settings, options).smsEnabled
  {
  }

  /** An account with a legacy SMS option but no setting: active for both copies,
      SMS flagged only by the browser's. */
  lemma LegacyOptionWitness()
    ensures ClientMfaStatus([], ["SMS"]) == MfaStatus(true, false, true)
    ensures LambdaMfaStatus([], ["SMS"]) == MfaStatus(true, false, false)
  {
  }

  /** The status the browser derives from an account's stored settings. */
  function AccountMfaStatus(a: Account): MfaStatus {
    ClientMfaStatus(SettingList(a), a.mfaOptions)
  }

  /** Read back through the settings list, an account's status reflects its
      enabled methods: TOTP enabled makes it active and TOTP-flagged; with no
      legacy options, neither method enabled makes it fully inactive. */
  lemma AccountMfaStatusReflectsSettings(a: Account)
    ensures a.totp.enabled ==> AccountMfaStatus(a).mfaActive && AccountMfaStatus(a).totpEnabled
    ensures a.sms.enabled ==> AccountMfaStatus(a).mfaActive && AccountMfaStatus(a).smsEnabled
    ensures !a.totp.enabled && !a.sms.enabled && a.mfaOptions == [] ==> AccountMfaStatus(a) == UnknownStatus
  {
    var l := SettingList(a);
    if a.totp.enabled {
      assert l[0] == "SOFTWARE_TOKEN_MFA";
    }
    if a.sms.enabled {
      assert l[|l| - 1] == "SMS_MFA";
    }
    if !a.totp.enabled && !a.sms.enabled {
      assert l == [];
    }
  }
}

=== FILE: directory.dfy ===
/** The user directory of the admin page: the rows it shows, the search /
    MFA / status filters with their active-filter count, and the sort by
    email or MFA state (`applyFiltersAndSort` in src/AdminPage.js). */
module Directory {
  import opened Wrappers
  import opened Provider
  import Derivations
  import opened Text

  /** One listed user as the page holds it: username, attributes, enabled
      flag, and the MFA state `loadUsers` attached. */
  datatype Row = Row(username: string, attributes: seq<Attr>, enabled: bool, mfaActive: bool)

  /** The filter inputs: the search box and the two drop-downs ('all',
      'active' / 'inactive', 'enabled' / 'disabled'). */
  datatype Filters = Filters(search: string, mfa: string, status: string)

  const NoFilters := Filters("", "all", "all")

  datatype SortKey = ByEmail | ByMfa
  datatype SortOrder = Asc | Desc
  datatype SortSpec = SortSpec(key: SortKey, order: SortOrder)

  /** The initial sort: email, ascending. */
  const DefaultSort := SortSpec(ByEmail, Asc)

  // ---------------------------------------------------------------------------
  // Filters

  /** The email shown for a row: its email attribute, or the username when it has none. */
  function RowEmail(row: Row): string {
    AttrOr(row.attributes, "email", row.username)
  }

  /** The search predicate, parameterised by the attribute the company is
      read from: the lower-cased term occurs in the lower-cased email, name or company. */
  predicate MatchesSearchIn(row: Row, term: string, companyAttr: string) {
    var t := ToLower(term);
    Contains(ToLower(RowEmail(row)), t)
    || Contains(ToLower(AttrOr(row.attributes, "name", "")), t)
    || Contains(ToLower(AttrOr(row.attributes, companyAttr, "")), t)
  }

  /** The attribute the search reads the company from, as written. */
  const CompanyAsWritten := "custom:company"

  /** The attribute the company is stored in, and from where the table displays it. */
  const CompanyAsIntended := "profile"

  /** The search as written: the company is read from `custom:company`. */
  predicate MatchesSearchAsWritten(row: Row, term: string) {
    MatchesSearchIn(row, term, CompanyAsWritten)
  }

  /** The search as intended: the company is read from `profile`. */
  predicate MatchesSearch(row: Row, term: string) {
    MatchesSearchIn(row, term, CompanyAsIntended)
  }

  /** The search ignores case on both sides, and the empty term matches every
      row; a term found in the lower-cased email is enough, whatever the
      name and company. */
  lemma SearchProperties(row: Row, term: string, companyAttr: string)
    ensures MatchesSearchIn(row, ToLower(term), companyAttr) == MatchesSearchIn(row, term, companyAttr)
    ensures MatchesSearchIn(row, "", companyAttr)
    ensures Contains(ToLower(RowEmail(row)), ToLower(term)) ==> MatchesSearchIn(row, term, companyAttr)
  {
    ToLowerIdempotent(term);
    assert StartsWith(ToLower(RowEmail(row)), ToLower(""));
  }

  /** A user whose company is stored as every create and recreate stores it
      is not found by searching for that company under the search as written,
      and is under the corrected one. */
  lemma CompanySearchWitness()
    ensures var row := Row("bob", [Attr("email", "bob@x.io"), Attr("profile", "Acme")], true, false);
            !MatchesSearchAsWritten(row, "acme") && MatchesSearch(row, "acme")
  {
    var row := Row("bob", [Attr("email", "bob@x.io"), Attr("profile", "Acme")], true, false);
    var t := ToLower("acme");
    assert t == "acme" by {
      assert t[0] == 'a' && t[1] == 'c' && t[2] == 'm' && t[3] == 'e';
    }
    assert ToLower("Acme") == t by {
      assert ToLower("Acme")[0] == 'a';
    }
    assert RowEmail(row) == "bob@x.io";
    var le := ToLower("bob@x.io");
    assert 'a' !in le by {
      forall i | 0 <= i < |le|
        ensures le[i] != 'a'
      {
        assert "bob@x.io"[i] != 'a' && "bob@x.io"[i] != 'A';
      }
    }
    MissingFirstChar(le, t);
    MissingFirstChar(ToLower(""), t);
    assert AttrOr(row.attributes, "name", "") == "";
    assert AttrOr(row.attributes, "custom:company", "") == "";
    assert AttrOr(row.attributes, "profile", "") == "Acme";
    assert StartsWith(ToLower("Acme"), t);
  }

  /** The same account, searched for by its company through the whole
      pipeline as written: nothing is shown. */
  lemma CompanySearchWitnessShown()
    ensures var row := Row("bob", [Attr("email", "bob@x.io"), Attr("profile", "Acme")], true, false);
            ApplyFiltersAndSort([row], Filters("acme", "all", "all"), DefaultSort, CompanyAsWritten).shown == []
  {
    var row := Row("bob", [Attr("email", "bob@x.io"), Attr("profile", "Acme")], true, false);
    CompanySearchWitness();
    assert !IsBlank("acme") by { assert !IsSpace("acme"[0]); }
    assert !Passes(Filters("acme", "all", "all"), row, CompanyAsWritten);
    assert Filtered([row], Filters("acme", "all", "all"), CompanyAsWritten) == [] by {
      assert [row][1..] == [];
    }
  }

  /** Under the corrected search, every account created with a company is
      found by searching for that company, whatever its case. */
  lemma CompanyFound(username: string, email: string, name: string, company: string, enabled: bool, mfa: bool)
    requires company != ""
    ensures MatchesSearch(Row(username, Derivations.NewUserAttributes(email, name, company), enabled, mfa), company)
  {
    var row := Row(username, Derivations.NewUserAttributes(email, name, company), enabled, mfa);
    ToLowerIdempotent(company);
    assert StartsWith(ToLower(AttrOr(row.attributes, "profile", "")), ToLower(company));
  }

  /** The MFA drop-down: 'active' / 'inactive' keep exactly the rows with
      that state; any other value keeps every row. */
  predicate PassesMfa(row: Row, mfa: string) {
    if mfa == "active" then row.mfaActive
    else if mfa == "inactive" then !row.mfaActive
    else true
  }

  /** The status drop-down: 'enabled' / 'disabled' keep exactly the rows with that flag. */
  predicate PassesStatus(row: Row, status: string) {
    if status == "enabled" then row.enabled
    else if status == "disabled" then !row.enabled
    else true
  }

  /** Whether the search box takes part: its trimmed text is non-empty. */
  predicate SearchActive(f: Filters) {
    !IsBlank(f.search)
  }

  /** Whether a row survives all three filters, the search reading the
      company from `companyAttr`. */
  predicate Passes(f: Filters, row: Row, companyAttr: string) {
    (SearchActive(f) ==> MatchesSearchIn(row, f.search, companyAttr))
    && (f.mfa != "all" ==> PassesMfa(row, f.mfa))
    && (f.status != "all" ==> PassesStatus(row, f.status))
  }

  /** The drop-downs keep exactly the rows their value names; a value that
      names nothing (neither 'all' nor one of the two states) keeps every row,
      although it still counts as an applied filter. */
  lemma PassesDropDowns(f: Filters, row: Row, companyAttr: string)
    ensures Passes(f, row, companyAttr) <==>
      (SearchActive(f) ==> MatchesSearchIn(row, f.search, companyAttr))
      && (f.mfa == "active" ==> row.mfaActive) && (f.mfa == "inactive" ==> !row.mfaActive)
      && (f.status == "enabled" ==> row.enabled) && (f.status == "disabled" ==> !row.enabled)
    ensures f.mfa !in {"all", "active", "inactive"} ==> PassesMfa(row, f.mfa) && ActiveCount(f) >= 1
    ensures f.status !in {"all", "enabled", "disabled"} ==> PassesStatus(row, f.status) && ActiveCount(f) >= 1
  {
  }

  /** The number of `true`s in `flags`. */
  function CountTrue(flags: seq<bool>): (n: nat)
    ensures n <= |flags|
  {
    if |flags| == 0 then 0 else (if flags[0] then 1 else 0) + CountTrue(flags[1..])
  }

  /** The number of filters applied: one for each of the search, the MFA
      drop-down and the status drop-down that is set. */
  function ActiveCount(f: Filters): (n: nat)
    ensures n <= 3
    ensures n == (if SearchActive(f) then 1 else 0) + (if f.mfa != "all" then 1 else 0) + (if f.status != "all" then 1 else 0)
    ensures n == 0 <==> !SearchActive(f) && f.mfa == "all" && f.status == "all"
  {
    var flags := [SearchActive(f), f.mfa != "all", f.status != "all"];
    assert flags[1..][1..][1..] == [];
    assert CountTrue(flags[1..][1..]) == (if f.status != "all" then 1 else 0);
    assert CountTrue(flags[1..]) == (if f.mfa != "all" then 1 else 0) + CountTrue(flags[1..][1..]);
    CountTrue(flags)
  }

  /** `a` is `b` with some elements left out, the rest in their order. */
  predicate SubList(a: seq<Row>, b: seq<Row>)
    decreases |b|
  {
    if |a| == 0 then true
    else if |b| == 0 then false
    else if a[0] == b[0] then SubList(a[1..], b[1..])
    else SubList(a, b[1..])
  }

  /** The rows that pass the filters, in their original order. */
  function Filtered(rows: seq<Row>, f: Filters, companyAttr: string): (r: seq<Row>)
    ensures |r| <= |rows|
    ensures forall x :: x in r <==> x in rows && Passes(f, x, companyAttr)
    ensures multiset(r) <= multiset(rows)
  {
    if |rows| == 0 then []
    else
      assert rows == [rows[0]] + rows[1..];
      if Passes(f, rows[0], companyAttr) then [rows[0]] + Filtered(rows[1..], f, companyAttr)
      else Filtered(rows[1..], f, companyAttr)
  }

  /** Filtering only leaves rows out: the result is a sub-list of the input. */
  lemma {:induction false} FilteredIsSubList(rows: seq<Row>, f: Filters, companyAttr: string)
    ensures SubList(Filtered(rows, f, companyAttr), rows)
    decreases |rows|
  {
    if |rows| > 0 {
      FilteredIsSubList(rows[1..], f, companyAttr);
    }
  }

  /** With no filter set, every row is kept, in order. */
  lemma {:induction false} NoFiltersKeepAll(rows: seq<Row>, companyAttr: string)
    ensures Filtered(rows, NoFilters, companyAttr) == rows
    decreases |rows|
  {
    if |rows| > 0 {
      NoFiltersKeepAll(rows[1..], companyAttr);
      assert rows == [rows[0]] + rows[1..];
    }
  }

  // ---------------------------------------------------------------------------
  // Sorting

  /** The email sort key: the row's email, lower-cased. */
  function EmailKey(row: Row): string {
    ToLower(RowEmail(row))
  }

  /** The key order, ascending: emails by JavaScript string order, MFA with inactive first. */
  predicate KeyLe(key: SortKey, a: Row, b: Row) {
    match key
    case ByEmail => LexLe(EmailKey(a), EmailKey(b))
    case ByMfa => !a.mfaActive || b.mfaActive
  }

  /** `a` may be shown before `b`. The comparator never answers "equal", so
      the order among rows with equal keys is left open. */
  predicate RowLe(spec: SortSpec, a: Row, b: Row) {
    if spec.order == Asc then KeyLe(spec.key, a, b) else KeyLe(spec.key, b, a)
  }

  lemma RowLeTotal(spec: SortSpec, a: Row, b: Row)
    ensures RowLe(spec, a, b) || RowLe(spec, b, a)
  {
    if spec.key == ByEmail {
      LexLeTotal(EmailKey(a), EmailKey(b));
    }
  }

  lemma RowLeTransitive(spec: SortSpec, a: Row, b: Row, c: Row)
    requires RowLe(spec, a, b) && RowLe(spec, b, c)
    ensures RowLe(spec, a, c)
  {
    if spec.key == ByEmail {
      if spec.order == Asc {
        LexLeTransitive(EmailKey(a), EmailKey(b), EmailKey(c));
      } else {
        LexLeTransitive(EmailKey(c), EmailKey(b), EmailKey(a));
      }
    }
  }

  predicate Sorted(spec: SortSpec, s: seq<Row>) {
    forall i, j :: 0 <= i < j < |s| ==> RowLe(spec, s[i], s[j])
  }

  /** Insert `x` before the first row it may precede. */
  function Insert(spec: SortSpec, x: Row, s: seq<Row>): (r: seq<Row>)
    ensures multiset(r) == multiset(s) + multiset{x}
  {
    if |s| == 0 then [x]
    else if RowLe(spec, x, s[0]) then [x] + s
    else
      assert s == [s[0]] + s[1..];
      [s[0]] + Insert(spec, x, s[1..])
  }

  lemma {:induction false} InsertSorted(spec: SortSpec, x: Row, s: seq<Row>)
    requires Sorted(spec, s)
    ensures Sorted(spec, Insert(spec, x, s))
    decreases |s|
  {
    if |s| == 0 {
    } else if RowLe(spec, x, s[0]) {
      var r := [x] + s;
      forall j | 0 < j < |r|
        ensures RowLe(spec, x, r[j])
      {
        if j > 1 {
          RowLeTransitive(spec, x, s[0], s[j - 1]);
        }
      }
    } else {
      RowLeTotal(spec, x, s[0]);
      var tail := Insert(spec, x, s[1..]);
      InsertSorted(spec, x, s[1..]);
      var r := [s[0]] + tail;
      forall j | 0 < j < |r|
        ensures RowLe(spec, s[0], r[j])
      {
        var y := r[j];
        assert y in multiset(tail);
        assert y in multiset(s[1..]) || y == x;
        if y != x {
          var k :| 0 <= k < |s[1..]| && s[1..][k] == y;
          assert s[k + 1] == y;
        }
      }
    }
  }

  /** Insertion sort of the rows under `spec`. */
  function SortRows(spec: SortSpec, s: seq<Row>): (r: seq<Row>)
    ensures multiset(r) == multiset(s)
  {
    if |s| == 0 then []
    else
      assert s == [s[0]] + s[1..];
      Insert(spec, s[0], SortRows(spec, s[1..]))
  }

  /** The sort orders the rows and only permutes them. */
  lemma {:induction false} SortRowsSorted(spec: SortSpec, s: seq<Row>)
    ensures Sorted(spec, SortRows(spec, s))
    decreases |s|
  {
    if |s| > 0 {
      SortRowsSorted(spec, s[1..]);
      InsertSorted(spec, s[0], SortRows(spec, s[1..]));
    }
  }

  // ---------------------------------------------------------------------------
  // The pipeline

  /** What the page displays: the rows, and the active-filter badge. */
  datatype View = View(shown: seq<Row>, count: nat)

  /** `applyFiltersAndSort(userList)` with the given filters and sort, the
      search reading the company from `companyAttr`. */
  function ApplyFiltersAndSort(rows: seq<Row>, f: Filters, spec: SortSpec, companyAttr: string): (v: View)
    ensures v.count == ActiveCount(f) && v.count <= 3
    ensures multiset(v.shown) == multiset(Filtered(rows, f, companyAttr))
    ensures forall x :: x in v.shown <==> x in rows && Passes(f, x, companyAttr)
    ensures |v.shown| <= |rows|
  {
    var kept := Filtered(rows, f, companyAttr);
    var shown := SortRows(spec, kept);
    assert forall x :: x in shown <==> x in multiset(kept);
    View(shown, ActiveCount(f))
  }

  /** The displayed rows are in the chosen order, and exactly a permutation
      of the filtered sub-list of the input. */
  lemma ApplyFiltersAndSortCorrect(rows: seq<Row>, f: Filters, spec: SortSpec, companyAttr: string)
    ensures var v := ApplyFiltersAndSort(rows, f, spec, companyAttr);
            Sorted(spec, v.shown) && SubList(Filtered(rows, f, companyAttr), rows)
            && multiset(v.shown) == multiset(Filtered(rows, f, companyAttr))
  {
    SortRowsSorted(spec, Filtered(rows, f, companyAttr));
    FilteredIsSubList(rows, f, companyAttr);
  }

  /** With no filter set, all rows are shown, reordered only, and the badge is hidden. */
  lemma NoFiltersShowAll(rows: seq<Row>, spec: SortSpec, companyAttr: string)
    ensures var v := ApplyFiltersAndSort(rows, NoFilters, spec, companyAttr);
            multiset(v.shown) == multiset(rows) && v.count == 0
  {
    NoFiltersKeepAll(rows, companyAttr);
  }

  /** Through the whole pipeline, searching for the company of an account
      created with one shows that account under the corrected search, in
      every sort. */
  lemma CompanySearchPipeline(rows: seq<Row>, row: Row, email: string, name: string, company: string, spec: SortSpec)
    requires row in rows && row.attributes == Derivations.NewUserAttributes(email, name, company)
    requires !IsBlank(company)
    ensures row in ApplyFiltersAndSort(rows, Filters(company, "all", "all"), spec, CompanyAsIntended).shown
  {
    assert company != "" by {
      if company == "" {
        assert IsBlank(company);
      }
    }
    CompanyFound(row.username, email, name, company, row.enabled, row.mfaActive);
  }
}

=== FILE: lambda_handler.dfy ===
/** The Lambda behind the API of lambda/index.js: an HTTP router over a
    `(path, verb)` table, and the server-side copies of the account
    operations. Where a Lambda operation makes exactly the provider call the
    browser-side service makes, it is that function of `CognitoService`;
    where the two copies differ (create, recreate, reset, set-permanent,
    MFA status, credentials) the Lambda's own version is here, with a lemma
    stating how it relates to the browser's. */
module LambdaHandler {
  import opened Wrappers
  import opened Provider
  import opened Derivations
  import opened ProfileStore
  import CognitoService

  /** The CORS headers every answer carries. */
  const Cors: map<string, string> := map[
    "Access-Control-Allow-Origin" := "*",
    "Access-Control-Allow-Headers" := "Content-Type,Authorization",
    "Access-Control-Allow-Methods" := "GET,POST,PUT,DELETE,OPTIONS"]

  /** The parts of a JSON value the handler looks at. */
  datatype Json = JString(s: string) | JObject(fields: map<string, Json>) | JOther

  /** `event.body`: absent or empty (read as `{}`), a parsed object, or text
      that `JSON.parse` throws on, with the parser's message. */
  datatype RawBody = NoBody | Parsed(fields: map<string, Json>) | Malformed(error: string)

  datatype Event = Event(httpMethod: string, path: string, body: RawBody, query: Option<map<string, string>>)

  /** The JSON bodies the handler answers with. `Done` is `{success: true}`. */
  datatype Payload =
    | Empty
    | ErrorMessage(error: string)
    | Done
    | Admin(name: string, email: string)
    | Users(names: set<string>)
    | CreatedUser(user: Account, tempPassword: string)
    | Recreated(user: Account)
    | Status(status: MfaStatus)
    | Config(mfaConfiguration: string, enabledMfaMethods: seq<string>)

  /** What an operation returns before the handler adds the CORS headers. */
  datatype Reply = Reply(statusCode: int, headers: map<string, string>, body: Payload)

  datatype Response = Response(statusCode: int, headers: map<string, string>, body: Payload)

  /** A handled event: the response, the pool afterwards, the provider calls made. */
  datatype Handled = Handled(response: Response, pool: Pool, trace: seq<Call>)

  /** A string-valued body field, as destructuring reads it; any other value counts as absent. */
  function Field(body: map<string, Json>, key: string): (r: Option<string>)
    ensures r.Some? <==> key in body && body[key].JString?
    ensures r.Some? ==> body[key] == JString(r.value)
  {
    if key in body && body[key].JString? then Some(body[key].s) else None
  }

  /** A string field where the request's value is passed on as is; an absent one is read as the empty string. */
  function Text(body: map<string, Json>, key: string): (r: string)
    ensures key in body && body[key].JString? ==> r == body[key].s
    ensures !(key in body && body[key].JString?) ==> r == ""
  {
    Field(body, key).GetOr("")
  }

  /** A successful run answered with status 200 and the given body; a failure stays a failure. */
  function Answer<T>(run: Run<T>, body: T -> Payload): (r: Run<Reply>)
    ensures r.pool == run.pool && r.trace == run.trace
    ensures r.result.Success? <==> run.result.Success?
    ensures run.result.Success? ==> r.result.value == Reply(200, map[], body(run.result.value))
    ensures run.result.Failure? ==> r.result.error == run.result.error
  {
    match run.result
    case Success(v) => Run(Success(Reply(200, map[], body(v))), run.pool, run.trace)
    case Failure(e) => Run(Failure(e), run.pool, run.trace)
  }

  // ---------------------------------------------------------------------------
  // Routing table

  datatype Route =
    | AuthRoute | UsersList | UsersCreate | UsersDelete | UsersRecreate
    | UsersResetPassword | UsersSetPassword | UsersEnable | UsersDisable
    | MfaEnable | MfaDisable | MfaStatusQuery | PoolMfaRead | PoolMfaWrite

  /** The `(path, verb)` pair each route answers. */
  function RouteKey(rt: Route): (string, string) {
    match rt
    case AuthRoute => ("/auth", "POST")
    case UsersList => ("/users", "GET")
    case UsersCreate => ("/users/create", "POST")
    case UsersDelete => ("/users/delete", "POST")
    case UsersRecreate => ("/users/recreate", "POST")
    case UsersResetPassword => ("/users/reset-password", "POST")
    case UsersSetPassword => ("/users/set-password", "POST")
    case UsersEnable => ("/users/enable", "POST")
    case UsersDisable => ("/users/disable", "POST")
    case MfaEnable => ("/users/mfa/enable", "POST")
    case MfaDisable => ("/users/mfa/disable", "POST")
    case MfaStatusQuery => ("/users/mfa/status", "POST")
    case PoolMfaRead => ("/pool/mfa", "GET")
    case PoolMfaWrite => ("/pool/mfa", "POST")
  }

  /** The `if / else if` chain of the handler: the route whose pair matches, if any. */
  function RouteOf(path: string, verb: string): (r: Option<Route>)
    ensures r.Some? ==> RouteKey(r.value) == (path, verb)
    ensures r.None? ==> forall rt :: RouteKey(rt) != (path, verb)
  {
    if path == "/auth" && verb == "POST" then Some(AuthRoute)
    else if path == "/users" && verb == "GET" then Some(UsersList)
    else if path == "/users/create" && verb == "POST" then Some(UsersCreate)
    else if path == "/users/delete" && verb == "POST" then Some(UsersDelete)
    else if path == "/users/recreate" && verb == "POST" then Some(UsersRecreate)
    else if path == "/users/reset-password" && verb == "POST" then Some(UsersResetPassword)
    else if path == "/users/set-password" && verb == "POST" then Some(UsersSetPassword)
    else if path == "/users/enable" && verb == "POST" then Some(UsersEnable)
    else if path == "/users/disable" && verb == "POST" then Some(UsersDisable)
    else if path == "/users/mfa/enable" && verb == "POST" then Some(MfaEnable)
    else if path == "/users/mfa/disable" && verb == "POST" then Some(MfaDisable)
    else if path == "/users/mfa/status" && verb == "POST" then Some(MfaStatusQuery)
    else if path == "/pool/mfa" && verb == "GET" then Some(PoolMfaRead)
    else if path == "/pool/mfa" && verb == "POST" then Some(PoolMfaWrite)
    else None
  }

  /** Each route is reached by its own pair and by no other: the table has no
      shadowed entry, and no two routes share a pair. */
  lemma RouteTableExact(rt: Route, rt': Route)
    ensures RouteOf(RouteKey(rt).0, RouteKey(rt).1) == Some(rt)
    ensures RouteKey(rt) == RouteKey(rt') ==> rt == rt'
  {
  }

  // ---------------------------------------------------------------------------
  // Operations that differ from the browser-side copies

  /** `validateAdmin({email, password})`: a store error is thrown; a missing
      record or a password that is not strictly equal answers 401; a match
      answers 200 with the record's email and name, the name defaulting to
      'Admin User'. An absent password never matches. */
  function ValidateAdmin(store: AdminStore, email: string, password: Option<string>): (r: Result<Reply>)
    ensures store.Unreachable? <==> r.Failure?
    ensures r.Failure? ==> r.error == store.error
    ensures r.Success? ==> r.value.headers == map[]
    ensures r.Success? && r.value.statusCode == 200 <==>
      store.Reachable? && email in store.records && password == Some(store.records[email].password)
    ensures r.Success? && r.value.statusCode != 200 ==> r.value == Reply(401, map[], ErrorMessage("Invalid credentials"))
    ensures r.Success? && r.value.statusCode == 200 ==>
      var rec := store.records[email];
      r.value.body == Admin(if rec.name != "" then rec.name else "Admin User", rec.email)
  {
    match store
    case Unreachable(e) => Failure(e)
    case Reachable(records) =>
      if email !in records || password != Some(records[email].password) then
        Success(Reply(401, map[], ErrorMessage("Invalid credentials")))
      else
        var rec := records[email];
        Success(Reply(200, map[], Admin(if rec.name != "" then rec.name else "Admin User", rec.email)))
  }

  /** The two credential checks accept exactly the same requests and report
      the same email; they name a nameless admin differently, and only the
      Lambda passes a store error on. */
  lemma ValidateCopiesAgree(store: AdminStore, email: string, password: string)
    ensures var l, c := ValidateAdmin(store, email, Some(password)), CognitoService.ValidateAdminCredentials(store, email, password);
            (l.Success? && l.value.statusCode == 200 <==> c.Authenticated?)
            && (c.Authenticated? ==> l.value.body.email == c.email)
            && (c.Authenticated? && store.records[email].name != "" ==> l.value.body.name == c.name)
            && (c.Authenticated? && store.records[email].name == "" ==> l.value.body.name == "Admin User" && c.name == "Admin")
            && (store.Unreachable? ==> l.Failure? && c == CognitoService.Rejected("Authentication service error"))
  {
  }

  /** `createUser`: the same create call as `createUserSimple`, and nothing else. */
  function CreateUserOp(p: Pool, env: Env, email: string, name: string, company: string, temp: string): (r: Run<Reply>)
    ensures r.trace == [CreateUser(email, NewUserAttributes(email, name, company), temp, true)]
    ensures r.pool.mode == p.mode
    ensures r.result.Failure? ==> r.pool == p
    ensures r.result.Success? ==>
      email !in p.users
      && r.pool.users == p.users[email := NewAccount(NewUserAttributes(email, name, company), temp)]
      && r.result.value == Reply(200, map[], CreatedUser(r.pool.users[email], temp))
  {
    var attrs := NewUserAttributes(email, name, company);
    match CreateUserAt(p, env, email, attrs, temp, true)
    case Failure(e) => Run(Failure(e), p, [CreateUser(email, attrs, temp, true)])
    case Success(p1) => Run(Success(Reply(200, map[], CreatedUser(p1.users[email], temp))), p1, [CreateUser(email, attrs, temp, true)])
  }

  /** The Lambda's create makes the browser's first call and stops there: the
      accounts end up the same whenever the browser's create succeeded, but
      the pool mode is left as it was. */
  lemma CreateCopiesAgree(p: Pool, env: Env, email: string, name: string, company: string, temp: string)
    ensures var l, c := CreateUserOp(p, env, email, name, company, temp), CognitoService.CreateUserSimple(p, env, email, name, company, temp);
            l.trace == c.trace[..1]
            && (l.result.Success? <==> |c.trace| == 2)
            && (l.result.Success? ==> l.pool.users == c.pool.users && l.pool.mode == p.mode)
  {
  }

  /** `recreateUser` in the Lambda: get, delete, create under the email, with no pool write. */
  function RecreateUserOp(p: Pool, env: Env, u: string, temp: string): (r: Run<Account>)
    ensures 1 <= |r.trace| <= 3
    ensures u in p.users ==>
      r.trace == CognitoService.RecreatePlan(u, ProfileOf(p.users[u].attributes, u), temp, false)[..|r.trace|]
    ensures |r.trace| == 1 ==> r.result.Failure? && r.pool == p && r.trace == [GetUser(u)]
    ensures |r.trace| == 2 ==> u in p.users && (r.result.Failure? ==> r.pool == p)
    ensures r.pool.mode == p.mode
    ensures r.result.Failure? && |r.trace| == 3 ==> u !in r.pool.users
    ensures r.result.Success? ==> u in p.users
    ensures r.result.Success? ==>
      var prof := ProfileOf(p.users[u].attributes, u);
      && |r.trace| == 3
      && r.result.value == NewAccount(NewUserAttributes(prof.email, prof.name, prof.company), temp)
      && r.pool.users == (p.users - {u})[prof.email := r.result.value]
    ensures GetUserAt(p, env, u).Failure? ==> r == Run(Failure(GetUserAt(p, env, u).error), p, [GetUser(u)])
    ensures GetUserAt(p, env, u).Success? && DeleteUser(u) in env.rejects ==>
      r == Run(Failure(env.rejects[DeleteUser(u)]), p, [GetUser(u), DeleteUser(u)])
    ensures u in p.users ==>
      var prof := ProfileOf(p.users[u].attributes, u);
      (r.result.Success? <==>
         GetUser(u) !in env.rejects && DeleteUser(u) !in env.rejects
         && CreateUser(prof.email, NewUserAttributes(prof.email, prof.name, prof.company), temp, true) !in env.rejects
         && (prof.email == u || prof.email !in p.users))
  {
    var t0 := [GetUser(u)];
    match GetUserAt(p, env, u)
    case Failure(e) => Run(Failure(e), p, t0)
    case Success(current) =>
      var prof := ProfileOf(current.attributes, u);
      var attrs := NewUserAttributes(prof.email, prof.name, prof.company);
      var plan := CognitoService.RecreatePlan(u, prof, temp, false);
      assert plan == [GetUser(u), DeleteUser(u), CreateUser(prof.email, attrs, temp, true)];
      var t1 := t0 + [DeleteUser(u)];
      match DeleteUserAt(p, env, u)
      case Failure(e) => Run(Failure(e), p, t1)
      case Success(p1) =>
        var t2 := t1 + [CreateUser(prof.email, attrs, temp, true)];
        match CreateUserAt(p1, env, prof.email, attrs, temp, true)
        case Failure(e) => Run(Failure(e), p1, t2)
        case Success(p2) => Run(Success(p2.users[prof.email]), p2, t2)
  }

  /** Whenever the browser's recreate succeeds, the Lambda's succeeds too,
      recreating the same account into the same set of accounts; only the
      pool mode differs. */
  lemma RecreateCopiesAgree(p: Pool, env: Env, u: string, temp: string)
    requires CognitoService.RecreateUser(p, env, u, temp).result.Success?
    ensures var l, c := RecreateUserOp(p, env, u, temp), CognitoService.RecreateUser(p, env, u, temp);
            l.result == c.result && l.pool.users == c.pool.users && l.pool.mode == p.mode
  {
  }

  /** `resetPassword({username, newPassword})`: `newPassword || 'TempPass123!'`,
      so a missing and an empty password both become the default. */
  function ResetPasswordOp(p: Pool, env: Env, u: string, newPassword: Option<string>): (r: Run<()>)
    ensures |r.trace| == 1 && r.trace[0].SetUserPassword?
    ensures var pw := r.trace[0].password;
            && r.trace == [SetUserPassword(u, pw, false)]
            && (pw == CognitoService.DefaultResetPassword <==> newPassword.None? || newPassword.value in {"", CognitoService.DefaultResetPassword})
            && (pw != CognitoService.DefaultResetPassword ==> newPassword == Some(pw))
            && (r.result.Success? <==> SetUserPassword(u, pw, false) !in env.rejects && u in p.users)
            && (r.result.Success? ==>
                  r.pool == p.(users := p.users[u := p.users[u].(password := pw, temporary := true, status := ForceChangePassword)]))
    ensures r.result.Failure? ==> r.pool == p
  {
    var pw := if newPassword.Some? && newPassword.value != "" then newPassword.value else CognitoService.DefaultResetPassword;
    match SetUserPasswordAt(p, env, u, pw, false)
    case Failure(e) => Run(Failure(e), p, [SetUserPassword(u, pw, false)])
    case Success(p1) => Run(Success(()), p1, [SetUserPassword(u, pw, false)])
  }

  /** The two reset copies coincide except on an empty password, which the
      browser's copy sets as given and the Lambda's replaces by the default. */
  lemma ResetCopiesAgree(p: Pool, env: Env, u: string, newPassword: Option<string>)
    ensures newPassword != Some("") ==>
      ResetPasswordOp(p, env, u, newPassword) == CognitoService.ForcePasswordReset(p, env, u, newPassword)
    ensures newPassword == Some("") ==>
      ResetPasswordOp(p, env, u, newPassword).trace[0].password == CognitoService.DefaultResetPassword
      && CognitoService.ForcePasswordReset(p, env, u, newPassword).trace[0].password == ""
  {
  }

  /** `setPermanentPassword` in the Lambda: a failed force-reset is thrown
      before anything else; otherwise the same setup-and-answer sequence as
      the browser's copy. */
  function SetPermanentPasswordOp(p: Pool, env: Env, u: string, newPassword: string): (r: Run<()>)
    ensures 1 <= |r.trace| <= 4 && r.trace[0] == ResetUserPassword(u)
    ensures |r.trace| == 1 <==> ResetUserPasswordAt(p, env, u).Failure?
    ensures |r.trace| == 1 ==> r.result == Failure(ResetUserPasswordAt(p, env, u).error) && r.pool == p
    ensures |r.trace| >= 2 ==> r.trace[1] == SetUserPassword(u, CognitoService.SetupPassword, false)
    ensures r.result.Success? ==> |r.trace| >= 3 && u in r.pool.users
    ensures r.result.Success? && |r.trace| == 4 ==>
      r.pool.users[u].password == newPassword && !r.pool.users[u].temporary && r.pool.users[u].status == Confirmed
    ensures r.result.Success? && |r.trace| == 3 ==>
      r.pool.users[u].password == CognitoService.SetupPassword && r.pool.users[u].temporary
    ensures var s := SetUserPasswordAt(p, env, u, CognitoService.SetupPassword, false);
            ResetUserPasswordAt(p, env, u).Success? && s.Failure? ==> r.result == Failure(s.error) && |r.trace| == 2
    ensures ResetUserPasswordAt(p, env, u).Success? ==>
      r.result == CognitoService.SetupAndAnswer(p, env, u, newPassword).result
      && r.trace == [ResetUserPassword(u)] + CognitoService.SetupAndAnswer(p, env, u, newPassword).trace
  {
    CognitoService.SetupAfterReset(p, env, u, newPassword);
    match ResetUserPasswordAt(p, env, u)
    case Failure(e) => Run(Failure(e), p, [ResetUserPassword(u)])
    case Success(p1) =>
      var tail := CognitoService.SetupAndAnswer(p1, env, u, newPassword);
      Run(tail.result, tail.pool, [ResetUserPassword(u)] + tail.trace)
  }

  /** The copies agree whenever the force-reset succeeds; when it fails the
      Lambda stops after it, while the browser's copy goes on to set the
      temporary password. */
  lemma SetPermanentCopiesAgree(p: Pool, env: Env, u: string, newPassword: string)
    ensures ResetUserPasswordAt(p, env, u).Success? ==>
      SetPermanentPasswordOp(p, env, u, newPassword) == CognitoService.SetPermanentPassword(p, env, u, newPassword)
    ensures ResetUserPasswordAt(p, env, u).Failure? ==>
      SetPermanentPasswordOp(p, env, u, newPassword).result.Failure?
      && |SetPermanentPasswordOp(p, env, u, newPassword).trace| == 1
      && |CognitoService.SetPermanentPassword(p, env, u, newPassword).trace| >= 2
  {
  }

  /** With the force-reset and every later call accepted, an enabled account
      and the provider answering as the account state implies, the Lambda's
      copy makes all four calls and leaves exactly that account CONFIRMED
      with the new, permanent password. */
  lemma SetPermanentOpSucceeds(p: Pool, env: Env, u: string, newPassword: string)
    requires u in p.users && p.users[u].enabled && u !in env.challenges
    requires ResetUserPassword(u) !in env.rejects
    requires SetUserPassword(u, CognitoService.SetupPassword, false) !in env.rejects
    requires InitiateAuth(u, CognitoService.SetupPassword) !in env.rejects
    requires RespondNewPassword(u, newPassword) !in env.rejects
    ensures var r := SetPermanentPasswordOp(p, env, u, newPassword);
            && r.result.Success? && |r.trace| == 4
            && r.pool == p.(users := p.users[u := p.users[u].(password := newPassword, temporary := false, status := Confirmed)])
  {
    CognitoService.SetPermanentPasswordSucceeds(p, env, u, newPassword);
    SetPermanentCopiesAgree(p, env, u, newPassword);
  }

  /** `userPoolMFAConfig && userPoolMFAConfig.mfaConfiguration === 'ON'`. */
  predicate ConfigSaysOn(config: Option<Json>) {
    config.Some? && config.value.JObject? && "mfaConfiguration" in config.value.fields
    && config.value.fields["mfaConfiguration"] == JString("ON")
  }

  /** An absent configuration, or one that is not an object, never
      short-circuits; a configuration the console sends does exactly when its
      mode is ON. */
  lemma ConfigSaysOnExactly(c: PoolConfig, other: Json)
    ensures !ConfigSaysOn(None)
    ensures !other.JObject? ==> !ConfigSaysOn(Some(other))
    ensures ConfigSaysOn(Some(ConfigJson(c))) <==> c.mode == On
  {
  }

  /** `getMFAStatus({username, userPoolMFAConfig})`: ON short-circuits to
      all-active without a lookup; otherwise the account is read and its
      settings decide; any lookup error answers all-false. Never fails. */
  function GetMfaStatusOp(p: Pool, env: Env, u: string, config: Option<Json>): (r: Run<MfaStatus>)
    ensures r.result.Success? && r.pool == p
    ensures ConfigSaysOn(config) ==> r.result.value == RequiredStatus && r.trace == []
    ensures !ConfigSaysOn(config) ==> r.trace == [GetUser(u)]
    ensures !ConfigSaysOn(config) && GetUserAt(p, env, u).Failure? ==> r.result.value == UnknownStatus
    ensures !ConfigSaysOn(config) && GetUserAt(p, env, u).Success? ==>
      r.result.value == LambdaMfaStatus(SettingList(p.users[u]), p.users[u].mfaOptions)
  {
    if ConfigSaysOn(config) then Run(Success(RequiredStatus), p, [])
    else
      match GetUserAt(p, env, u)
      case Failure(_) => Run(Success(UnknownStatus), p, [GetUser(u)])
      case Success(a) => Run(Success(LambdaMfaStatus(SettingList(a), a.mfaOptions)), p, [GetUser(u)])
  }

  /** The configuration object the console sends along with a status request. */
  function ConfigJson(c: PoolConfig): Json {
    JObject(map["mfaConfiguration" := JString(ModeName(c.mode))])
  }

  /** Sent the same pool configuration, the two status copies make the same
      calls and agree on `mfaActive`; a flag the Lambda raises, the browser raises too. */
  lemma StatusCopiesAgree(p: Pool, env: Env, u: string, config: Option<PoolConfig>)
    ensures var json := if config.Some? then Some(ConfigJson(config.value)) else None;
            var l, c := GetMfaStatusOp(p, env, u, json), CognitoService.GetUserMfaStatus(p, env, u, config);
            && l.trace == c.trace
            && l.result.value.mfaActive == c.result.value.mfaActive
            && (l.result.value.totpEnabled ==> c.result.value.totpEnabled)
            && (l.result.value.smsEnabled ==> c.result.value.smsEnabled)
  {
    if GetUserAt(p, env, u).Success? {
      CopiesAgreeOnActive(SettingList(p.users[u]), p.users[u].mfaOptions);
    }
  }

  /** The message an unrecognised `MfaConfiguration` is refused with. */
  const InvalidMfaConfiguration := "Invalid MfaConfiguration"

  /** `setPoolMFAConfig({mfaConfiguration})`: the same write as the browser's
      `updateUserPoolMFAConfig`; a value that names no mode is refused. */
  function SetPoolMfaConfigOp(p: Pool, env: Env, mode: Option<string>): (r: Run<()>)
    ensures r.pool.users == p.users
    ensures r.result.Success? <==> mode.Some? && ParseMode(mode.value).Some? && SetPoolMfa(ParseMode(mode.value).value, true) !in env.rejects
    ensures r.result.Success? ==> ModeName(r.pool.mode) == mode.value && r.pool.softwareToken
    ensures r.result.Failure? ==> r.pool == p
  {
    var parsed := if mode.Some? then ParseMode(mode.value) else None;
    match parsed
    case None => Run(Failure(InvalidMfaConfiguration), p, [])
    case Some(m) => CognitoService.UpdateUserPoolMfaConfig(p, env, m)
  }

  // ---------------------------------------------------------------------------
  // The handler

  /** The parsed body; an absent or empty one is `{}`. */
  function BodyFields(b: RawBody): map<string, Json> {
    if b.Parsed? then b.fields else map[]
  }

  /** `queryStringParameters?.searchTerm`. */
  function SearchTerm(query: Option<map<string, string>>): Option<string> {
    if query.Some? && "searchTerm" in query.value then Some(query.value["searchTerm"]) else None
  }

  /** The operation a route runs, on the parsed body and the query string. */
  function Dispatch(p: Pool, env: Env, store: AdminStore, rt: Route, body: map<string, Json>,
                    query: Option<map<string, string>>): (r: Run<Reply>)
    ensures r.result.Success? ==> r.result.value.headers == map[]
    ensures r.result.Success? ==> r.result.value.statusCode == 200 || (rt == AuthRoute && r.result.value.statusCode == 401)
    ensures rt == AuthRoute ==> r.pool == p && r.trace == []
  {
    var username := Text(body, "username");
    match rt
    case AuthRoute =>
      Run(ValidateAdmin(store, Text(body, "email"), Field(body, "password")), p, [])
    case UsersList =>
      Answer(CognitoService.ListUsersOp(p, env, SearchTerm(query)), names => Users(names))
    case UsersCreate =>
      CreateUserOp(p, env, Text(body, "email"), Text(body, "name"), Text(body, "company"), Text(body, "tempPassword"))
    case UsersDelete =>
      Answer(CognitoService.DeleteUserOp(p, env, username), _ => Done)
    case UsersRecreate =>
      Answer(RecreateUserOp(p, env, username, Text(body, "tempPassword")), a => Recreated(a))
    case UsersResetPassword =>
      Answer(ResetPasswordOp(p, env, username, Field(body, "newPassword")), _ => Done)
    case UsersSetPassword =>
      Answer(SetPermanentPasswordOp(p, env, username, Text(body, "newPassword")), _ => Done)
    case UsersEnable =>
      Answer(CognitoService.SetUserEnabled(p, env, username, true), _ => Done)
    case UsersDisable =>
      Answer(CognitoService.SetUserEnabled(p, env, username, false), _ => Done)
    case MfaEnable =>
      Answer(CognitoService.EnableTotpMfa(p, env, username), _ => Done)
    case MfaDisable =>
      Answer(CognitoService.DisableTotpMfa(p, env, username), _ => Done)
    case MfaStatusQuery =>
      var config := if "userPoolMFAConfig" in body then Some(body["userPoolMFAConfig"]) else None;
      Answer(GetMfaStatusOp(p, env, username, config), s => Status(s))
    case PoolMfaRead =>
      Answer(CognitoService.GetUserPoolMfaConfig(p, env), (c: PoolConfig) => Config(ModeName(c.mode), c.enabledMfas))
    case PoolMfaWrite =>
      Answer(SetPoolMfaConfigOp(p, env, Field(body, "mfaConfiguration")), _ => Done)
  }

  /** `handler(event)`: OPTIONS is answered before anything is read; then the
      body is parsed, the route chosen, and the operation run. A thrown error
      becomes a 500 carrying its message; every answer carries the CORS
      headers, overridden by any header of the operation's own. */
  function Handle(p: Pool, env: Env, store: AdminStore, ev: Event): (h: Handled)
    ensures ev.httpMethod == "OPTIONS" ==> h == Handled(Response(200, Cors, Empty), p, [])
    ensures h.response.headers == Cors
    ensures h.response.statusCode in {200, 401, 404, 500}
    ensures ev.httpMethod != "OPTIONS" && ev.body.Malformed? ==>
      h == Handled(Response(500, Cors, ErrorMessage(ev.body.error)), p, [])
    ensures ev.httpMethod != "OPTIONS" && !ev.body.Malformed? && RouteOf(ev.path, ev.httpMethod).None? ==>
      h == Handled(Response(404, Cors, ErrorMessage("Not found")), p, [])
    ensures h.response.statusCode == 401 ==> RouteOf(ev.path, ev.httpMethod) == Some(AuthRoute) && h.pool == p
  {
    if ev.httpMethod == "OPTIONS" then Handled(Response(200, Cors, Empty), p, [])
    else if ev.body.Malformed? then Handled(Response(500, Cors, ErrorMessage(ev.body.error)), p, [])
    else
      match RouteOf(ev.path, ev.httpMethod)
      case None => Handled(Response(404, Cors + map[], ErrorMessage("Not found")), p, [])
      case Some(rt) =>
        var run := Dispatch(p, env, store, rt, BodyFields(ev.body), ev.query);
        match run.result
        case Success(reply) => Handled(Response(reply.statusCode, Cors + reply.headers, reply.body), run.pool, run.trace)
        case Failure(e) => Handled(Response(500, Cors, ErrorMessage(e)), run.pool, run.trace)
  }

  /** A routed request answers exactly what its operation answers: the
      operation's status and body on success, 500 with its message on a
      throw, and in both cases the operation's calls and pool. */
  lemma RoutedRequest(p: Pool, env: Env, store: AdminStore, ev: Event, rt: Route)
    requires ev.httpMethod != "OPTIONS" && !ev.body.Malformed?
    requires (ev.path, ev.httpMethod) == RouteKey(rt)
    ensures var run := Dispatch(p, env, store, rt, BodyFields(ev.body), ev.query);
            var h := Handle(p, env, store, ev);
            && h.pool == run.pool && h.trace == run.trace
            && (run.result.Success? ==> h.response.statusCode == run.result.value.statusCode && h.response.body == run.result.value.body)
            && (run.result.Failure? ==> h.response == Response(500, Cors, ErrorMessage(run.result.error)))
  {
    RouteTableExact(rt, rt);
  }
}

=== FILE: profile_store.dfy ===
/** The admin-credentials table: records keyed by email. A lookup either
    reaches the table or fails with the service's message. */
module ProfileStore {

  /** One admin record; an empty `name` stands for a missing one. */
  datatype AdminRecord = AdminRecord(email: string, password: string, name: string)

  datatype AdminStore = Reachable(records: map<string, AdminRecord>) | Unreachable(error: string)
}

=== FILE: provider.dfy ===
/** The identity provider (a Cognito user pool) as the console sees it: a map
    from username to account, the pool-wide MFA mode and the pool's
    software-token switch, plus the single-step admin primitives the console
    calls. Every primitive either fails, leaving the pool as it was, or
    succeeds with the effect stated in its contract. A failure has one of two
    causes: a condition of the pool itself (no such user, username taken,
    wrong password), or the environment `Env`, which names the calls that the
    service rejects for reasons outside this model (throttling, password
    policy, network) together with the message it rejects them with. */
module Provider {
  import opened Wrappers

  /** The pool's `MfaConfiguration`. `On` is what the console shows as REQUIRED. */
  datatype PoolMode = Off | Optional | On

  /** The wire name of a mode. */
  function ModeName(m: PoolMode): string {
    match m
    case Off => "OFF"
    case Optional => "OPTIONAL"
    case On => "ON"
  }

  /** The wire name, read back. */
  function ParseMode(s: string): Option<PoolMode> {
    if s == "OFF" then Some(Off)
    else if s == "OPTIONAL" then Some(Optional)
    else if s == "ON" then Some(On)
    else None
  }

  lemma ParseModeName(m: PoolMode)
    ensures ParseMode(ModeName(m)) == Some(m)
  {
  }

  /** One `{ Name, Value }` entry of a user's attribute list. */
  datatype Attr = Attr(name: string, value: string)

  datatype UserStatus = ForceChangePassword | Confirmed | ResetRequired

  /** One per-user MFA method setting: enabled, and whether it is the preferred method. */
  datatype MfaSetting = MfaSetting(enabled: bool, preferred: bool)

  const MfaOff := MfaSetting(false, false)

  /** A user account. `mfaOptions` holds the `DeliveryMedium` of each legacy
      `MFAOptions` entry; no operation of the console writes it. */
  datatype Account = Account(
    attributes: seq<Attr>,
    enabled: bool,
    status: UserStatus,
    totp: MfaSetting,
    sms: MfaSetting,
    mfaOptions: seq<string>,
    password: string,
    temporary: bool)

  datatype Pool = Pool(users: map<string, Account>, mode: PoolMode, softwareToken: bool)

  /** What `describeUserPool` reports: the mode and `EnabledMfas`. */
  datatype PoolConfig = PoolConfig(mode: PoolMode, enabledMfas: seq<string>)

  /** The challenge an `adminInitiateAuth` answers with; `NoChallenge` stands for tokens issued directly. */
  datatype Challenge = NewPasswordRequired | MfaSetup | SoftwareTokenMfa | NoChallenge

  /** The `Filter` expression of a `listUsers` request. */
  datatype ListFilter = EmailIs(term: string) | UsernameIs(term: string)

  /** One admin call to the provider, as it appears in a trace. */
  datatype Call =
    | GetUser(username: string)
    | CreateUser(username: string, attributes: seq<Attr>, temporaryPassword: string, suppress: bool)
    | DeleteUser(username: string)
    | EnableUser(username: string)
    | DisableUser(username: string)
    | ResetUserPassword(username: string)
    | SetUserPassword(username: string, password: string, permanent: bool)
    | InitiateAuth(username: string, password: string)
    | RespondNewPassword(username: string, newPassword: string)
    | SetMfaPreference(username: string, totp: Option<MfaSetting>, sms: Option<MfaSetting>)
    | DescribePool
    | SetPoolMfa(mode: PoolMode, softwareToken: bool)
    | ListUsers(limit: nat, filter: Option<ListFilter>)

  /** The environment: calls the service rejects (with their message), the
      challenge it answers for a username when that is not the one the account
      state implies, how many pool reads after a mode write still show the
      previous mode (the provider's eventual consistency), and which of those
      reads, by number from 0, the service rejects (with their message). */
  datatype Env = Env(rejects: map<Call, string>, challenges: map<string, Challenge>, staleReads: nat,
                     failedReads: map<nat, string>)

  const UserNotFound := "User does not exist."
  const UserExists := "User account already exists"
  const WrongPassword := "Incorrect username or password."
  const UserIsDisabled := "User is disabled."
  const InvalidSession := "Invalid session for the user."

  /** The outcome of a sequence of calls: its result, the pool afterwards, and the calls made, in order. */
  datatype Run<T> = Run(result: Result<T>, pool: Pool, trace: seq<Call>)

  /** The account `adminCreateUser` makes: enabled, temporary password, no MFA. */
  function NewAccount(attributes: seq<Attr>, temporaryPassword: string): Account {
    Account(attributes, true, ForceChangePassword, MfaOff, MfaOff, [], temporaryPassword, true)
  }

  /** `UserMFASettingList` as `adminGetUser` reports it. */
  function SettingList(a: Account): seq<string> {
    (if a.totp.enabled then ["SOFTWARE_TOKEN_MFA"] else []) + (if a.sms.enabled then ["SMS_MFA"] else [])
  }

  /** The first `Value` whose `Name` is `name`: JavaScript `find(a => a.Name === name)?.Value`. */
  function FindAttr(attrs: seq<Attr>, name: string): (r: Option<string>)
    ensures r.None? <==> forall i :: 0 <= i < |attrs| ==> attrs[i].name != name
    ensures r.Some? ==> exists i :: 0 <= i < |attrs| && attrs[i] == Attr(name, r.value)
                                   && forall j :: 0 <= j < i ==> attrs[j].name != name
  {
    if |attrs| == 0 then None
    else if attrs[0].name == name then Some(attrs[0].value)
    else FindAttr(attrs[1..], name)
  }

  /** `find(...)?.Value || fallback`: a missing or empty value falls back. */
  function AttrOr(attrs: seq<Attr>, name: string, fallback: string): (r: string)
    ensures FindAttr(attrs, name).Some? && FindAttr(attrs, name).value != "" ==> r == FindAttr(attrs, name).value
    ensures FindAttr(attrs, name).None? || FindAttr(attrs, name).value == "" ==> r == fallback
  {
    match FindAttr(attrs, name)
    case Some(v) => if v != "" then v else fallback
    case None => fallback
  }

  // ---------------------------------------------------------------------------
  // Primitives

  function GetUserAt(p: Pool, env: Env, u: string): (r: Result<Account>)
    ensures r.Success? <==> GetUser(u) !in env.rejects && u in p.users
    ensures r.Success? ==> r.value == p.users[u]
  {
    if GetUser(u) in env.rejects then Failure(env.rejects[GetUser(u)])
    else if u !in p.users then Failure(UserNotFound)
    else Success(p.users[u])
  }

  function CreateUserAt(p: Pool, env: Env, u: string, attrs: seq<Attr>, temp: string, suppress: bool): (r: Result<Pool>)
    ensures r.Success? <==> CreateUser(u, attrs, temp, suppress) !in env.rejects && u !in p.users
    ensures r.Success? ==> r.value == p.(users := p.users[u := NewAccount(attrs, temp)])
  {
    var c := CreateUser(u, attrs, temp, suppress);
    if c in env.rejects then Failure(env.rejects[c])
    else if u in p.users then Failure(UserExists)
    else Success(p.(users := p.users[u := NewAccount(attrs, temp)]))
  }

  function DeleteUserAt(p: Pool, env: Env, u: string): (r: Result<Pool>)
    ensures r.Success? <==> DeleteUser(u) !in env.rejects && u in p.users
    ensures r.Success? ==> r.value == p.(users := p.users - {u})
  {
    if DeleteUser(u) in env.rejects then Failure(env.rejects[DeleteUser(u)])
    else if u !in p.users then Failure(UserNotFound)
    else Success(p.(users := p.users - {u}))
  }

  /** `adminEnableUser` (`enabled`) or `adminDisableUser` (`!enabled`). */
  function SetEnabledAt(p: Pool, env: Env, u: string, enabled: bool): (r: Result<Pool>)
    ensures r.Success? <==> (if enabled then EnableUser(u) else DisableUser(u)) !in env.rejects && u in p.users
    ensures r.Success? ==> r.value == p.(users := p.users[u := p.users[u].(enabled := enabled)])
  {
    var c := if enabled then EnableUser(u) else DisableUser(u);
    if c in env.rejects then Failure(env.rejects[c])
    else if u !in p.users then Failure(UserNotFound)
    else Success(p.(users := p.users[u := p.users[u].(enabled := enabled)]))
  }

  /** `adminResetUserPassword`: the account must reset its password at next sign-in. */
  function ResetUserPasswordAt(p: Pool, env: Env, u: string): (r: Result<Pool>)
    ensures r.Success? <==> ResetUserPassword(u) !in env.rejects && u in p.users
    ensures r.Success? ==> r.value == p.(users := p.users[u := p.users[u].(status := ResetRequired)])
  {
    if ResetUserPassword(u) in env.rejects then Failure(env.rejects[ResetUserPassword(u)])
    else if u !in p.users then Failure(UserNotFound)
    else Success(p.(users := p.users[u := p.users[u].(status := ResetRequired)]))
  }

  /** `adminSetUserPassword`: without `Permanent` the password is temporary and
      the account is put into FORCE_CHANGE_PASSWORD. */
  function SetUserPasswordAt(p: Pool, env: Env, u: string, pw: string, permanent: bool): (r: Result<Pool>)
    ensures r.Success? <==> SetUserPassword(u, pw, permanent) !in env.rejects && u in p.users
    ensures r.Success? ==>
      r.value == p.(users := p.users[u := p.users[u].(password := pw, temporary := !permanent,
                                                      status := if permanent then Confirmed else ForceChangePassword)])
  {
    var c := SetUserPassword(u, pw, permanent);
    if c in env.rejects then Failure(env.rejects[c])
    else if u !in p.users then Failure(UserNotFound)
    else
      var a := p.users[u].(password := pw, temporary := !permanent,
                           status := if permanent then Confirmed else ForceChangePassword);
      Success(p.(users := p.users[u := a]))
  }

  /** `adminInitiateAuth` with a password. A temporary password is answered
      with NEW_PASSWORD_REQUIRED unless the environment says otherwise. */
  function InitiateAuthAt(p: Pool, env: Env, u: string, pw: string): (r: Result<Challenge>)
    ensures r.Success? <==> InitiateAuth(u, pw) !in env.rejects && u in p.users && p.users[u].enabled && p.users[u].password == pw
    ensures r.Success? && u in env.challenges ==> r.value == env.challenges[u]
    ensures InitiateAuth(u, pw) !in env.rejects && u in p.users && !p.users[u].enabled ==> r == Failure(UserIsDisabled)
    ensures r.Success? && u !in env.challenges ==>
      (r.value == NewPasswordRequired <==> p.users[u].temporary)
  {
    var c := InitiateAuth(u, pw);
    if c in env.rejects then Failure(env.rejects[c])
    else if u !in p.users then Failure(UserNotFound)
    else if !p.users[u].enabled then Failure(UserIsDisabled)
    else if p.users[u].password != pw then Failure(WrongPassword)
    else if u in env.challenges then Success(env.challenges[u])
    else if p.users[u].temporary then Success(NewPasswordRequired)
    else Success(NoChallenge)
  }

  /** `adminRespondToAuthChallenge` for NEW_PASSWORD_REQUIRED: the new
      password becomes permanent and the account CONFIRMED. */
  function RespondNewPasswordAt(p: Pool, env: Env, u: string, pw: string): (r: Result<Pool>)
    ensures r.Success? <==> RespondNewPassword(u, pw) !in env.rejects && u in p.users && p.users[u].temporary
    ensures r.Success? ==> r.value == p.(users := p.users[u := p.users[u].(password := pw, temporary := false, status := Confirmed)])
  {
    var c := RespondNewPassword(u, pw);
    if c in env.rejects then Failure(env.rejects[c])
    else if u !in p.users then Failure(UserNotFound)
    else if !p.users[u].temporary then Failure(InvalidSession)
    else Success(p.(users := p.users[u := p.users[u].(password := pw, temporary := false, status := Confirmed)]))
  }

  /** `adminSetUserMFAPreference`: each given setting replaces the stored one; an absent one is left alone. */
  function SetMfaPreferenceAt(p: Pool, env: Env, u: string, totp: Option<MfaSetting>, sms: Option<MfaSetting>): (r: Result<Pool>)
    ensures r.Success? <==> SetMfaPreference(u, totp, sms) !in env.rejects && u in p.users
    ensures r.Success? ==> r.value.mode == p.mode && r.value.softwareToken == p.softwareToken
    ensures r.Success? ==> r.value.users == p.users[u := p.users[u].(totp := totp.GetOr(p.users[u].totp),
                                                                    sms := sms.GetOr(p.users[u].sms))]
  {
    var c := SetMfaPreference(u, totp, sms);
    if c in env.rejects then Failure(env.rejects[c])
    else if u !in p.users then Failure(UserNotFound)
    else
      var a := p.users[u];
      Success(p.(users := p.users[u := a.(totp := totp.GetOr(a.totp), sms := sms.GetOr(a.sms))]))
  }

  /** `describeUserPool`, reduced to the MFA part. */
  function DescribePoolAt(p: Pool, env: Env): (r: Result<PoolConfig>)
    ensures r.Success? <==> DescribePool !in env.rejects
    ensures r.Success? ==> r.value.mode == p.mode
  {
    if DescribePool in env.rejects then Failure(env.rejects[DescribePool])
    else Success(PoolConfig(p.mode, if p.softwareToken then ["SOFTWARE_TOKEN_MFA"] else []))
  }

  /** `setUserPoolMfaConfig`: writes the mode and the software-token switch, touching no account. */
  function SetPoolMfaAt(p: Pool, env: Env, mode: PoolMode, softwareToken: bool): (r: Result<Pool>)
    ensures r.Success? <==> SetPoolMfa(mode, softwareToken) !in env.rejects
    ensures r.Success? ==> r.value == Pool(p.users, mode, softwareToken)
  {
    var c := SetPoolMfa(mode, softwareToken);
    if c in env.rejects then Failure(env.rejects[c]) else Success(Pool(p.users, mode, softwareToken))
  }

  /** Whether a user passes a `listUsers` filter: exact match on the email attribute or on the username. */
  predicate PassesFilter(u: string, a: Account, filter: Option<ListFilter>) {
    match filter
    case None => true
    case Some(EmailIs(t)) => FindAttr(a.attributes, "email") == Some(t)
    case Some(UsernameIs(t)) => u == t
  }

  /** `listUsers`: the usernames passing the filter (the page limit is recorded in the call only). */
  function ListUsersAt(p: Pool, env: Env, limit: nat, filter: Option<ListFilter>): (r: Result<set<string>>)
    ensures r.Success? <==> ListUsers(limit, filter) !in env.rejects
    ensures r.Success? ==> forall u :: u in r.value <==> u in p.users && PassesFilter(u, p.users[u], filter)
  {
    var c := ListUsers(limit, filter);
    if c in env.rejects then Failure(env.rejects[c])
    else Success(set u | u in p.users && PassesFilter(u, p.users[u], filter))
  }
}

=== FILE: text.dfy ===
/** The few string operations the console relies on: JavaScript's
    `toLowerCase`, `includes`, `trim()` used as a truth value, and the `<`/`>`
    comparison of two strings. A string here is a sequence of Dafny `char`s,
    that is of Unicode scalar values, where JavaScript has UTF-16 code units;
    the two agree on every character below U+10000. Case mapping covers ASCII
    letters only. */
module Text {

  /** ASCII lower-casing of one character. */
  function LowerChar(c: char): (d: char)
    ensures 'A' <= c <= 'Z' ==> 'a' <= d <= 'z' && d as int == c as int + 32
    ensures !('A' <= c <= 'Z') ==> d == c
  {
    if 'A' <= c <= 'Z' then (c as int - 'A' as int + 'a' as int) as char else c
  }

  /** `s.toLowerCase()`. */
  function ToLower(s: string): (r: string)
    ensures |r| == |s|
    ensures forall i :: 0 <= i < |s| ==> r[i] == LowerChar(s[i])
  {
    seq(|s|, i requires 0 <= i < |s| => LowerChar(s[i]))
  }

  /** Lower-casing twice is lower-casing once. */
  lemma ToLowerIdempotent(s: string)
    ensures ToLower(ToLower(s)) == ToLower(s)
  {
    assert forall i :: 0 <= i < |s| ==> LowerChar(LowerChar(s[i])) == LowerChar(s[i]);
  }

  /** `s.startsWith(p)`. */
  predicate StartsWith(s: string, p: string) {
    |p| <= |s| && s[..|p|] == p
  }

  /** `hay.includes(needle)`: `needle` occurs at some offset of `hay`. */
  predicate Contains(hay: string, needle: string)
    decreases |hay|
  {
    StartsWith(hay, needle) || (|hay| > 0 && Contains(hay[1..], needle))
  }

  /** `needle` sits at offset `i` of `hay`. */
  predicate OccursAt(hay: string, needle: string, i: int) {
    0 <= i && i + |needle| <= |hay| && hay[i..i + |needle|] == needle
  }

  /** `Contains` agrees with the offset-based reading of `includes`. */
  lemma {:induction false} ContainsAt(hay: string, needle: string)
    ensures Contains(hay, needle) <==> exists i :: OccursAt(hay, needle, i)
    decreases |hay|
  {
    if StartsWith(hay, needle) {
      assert OccursAt(hay, needle, 0);
    } else if |hay| > 0 {
      ContainsAt(hay[1..], needle);
      if Contains(hay[1..], needle) {
        var i :| OccursAt(hay[1..], needle, i);
        assert hay[i + 1..i + 1 + |needle|] == hay[1..][i..i + |needle|];
        assert OccursAt(hay, needle, i + 1);
      }
      if exists i :: OccursAt(hay, needle, i) {
        var i :| OccursAt(hay, needle, i);
        assert i != 0;
        assert hay[1..][i - 1..i - 1 + |needle|] == hay[i..i + |needle|];
        assert OccursAt(hay[1..], needle, i - 1);
      }
    }
  }

  /** A needle whose first character does not occur in `hay` does not occur in it. */
  lemma {:induction false} MissingFirstChar(hay: string, needle: string)
    requires |needle| > 0 && needle[0] !in hay
    ensures !Contains(hay, needle)
    decreases |hay|
  {
    if |hay| > 0 {
      assert hay[0] != needle[0];
      MissingFirstChar(hay[1..], needle);
    }
  }

  /** The characters `String.prototype.trim` strips: the white space
      characters (tab, vertical tab, form feed, space, no-break space, the
      byte order mark and the other space separators) and the line
      terminators (line feed, carriage return, U+2028, U+2029). */
  predicate IsSpace(c: char) {
    c == '\t' || c == '\U{000B}' || c == '\U{000C}' || c == ' ' || c == '\U{00A0}' || c == '\U{FEFF}'
    || c == '\U{1680}' || ('\U{2000}' <= c <= '\U{200A}') || c == '\U{202F}' || c == '\U{205F}' || c == '\U{3000}'
    || c == '\n' || c == '\r' || c == '\U{2028}' || c == '\U{2029}'
  }

  /** `s` without its leading white space. */
  function TrimStart(s: string): (r: string)
    ensures |r| <= |s| && r == s[|s| - |r|..]
    ensures forall i :: 0 <= i < |s| - |r| ==> IsSpace(s[i])
    ensures |r| > 0 ==> !IsSpace(r[0])
    decreases |s|
  {
    if |s| > 0 && IsSpace(s[0]) then TrimStart(s[1..]) else s
  }

  /** `s` without its trailing white space. */
  function TrimEnd(s: string): (r: string)
    ensures |r| <= |s| && r == s[..|r|]
    ensures forall i :: |r| <= i < |s| ==> IsSpace(s[i])
    ensures |r| > 0 ==> !IsSpace(r[|r| - 1])
    decreases |s|
  {
    if |s| > 0 && IsSpace(s[|s| - 1]) then TrimEnd(s[..|s| - 1]) else s
  }

  /** `s.trim()`. */
  function Trim(s: string): string {
    TrimEnd(TrimStart(s))
  }

  /** Every character of `s` is white space. */
  predicate IsBlank(s: string) {
    forall i :: 0 <= i < |s| ==> IsSpace(s[i])
  }

  /** `s.trim()` is the empty string, i.e. falsy, exactly when `s` is blank. */
  lemma BlankIsTrimEmpty(s: string)
    ensures IsBlank(s) <==> Trim(s) == ""
  {
    var t := TrimStart(s);
    if |t| > 0 {
      assert s[|s| - |t|] == t[0];
      assert !IsSpace(t[0]);
    }
  }

  /** JavaScript `a <= b` on strings: code-unit lexicographic order, a proper prefix first. */
  predicate LexLe(a: string, b: string)
    decreases |a|
  {
    if |a| == 0 then true
    else if |b| == 0 then false
    else if a[0] != b[0] then a[0] < b[0]
    else LexLe(a[1..], b[1..])
  }

  lemma {:induction false} LexLeTotal(a: string, b: string)
    ensures LexLe(a, b) || LexLe(b, a)
    decreases |a|
  {
    if |a| > 0 && |b| > 0 && a[0] == b[0] {
      LexLeTotal(a[1..], b[1..]);
    }
  }

  lemma {:induction false} LexLeTransitive(a: string, b: string, c: string)
    requires LexLe(a, b) && LexLe(b, c)
    ensures LexLe(a, c)
    decreases |a|
  {
    if |a| > 0 && |b| > 0 && |c| > 0 && a[0] == b[0] && b[0] == c[0] {
      LexLeTransitive(a[1..], b[1..], c[1..]);
    }
  }

  lemma {:induction false} LexLeAntisymmetric(a: string, b: string)
    requires LexLe(a, b) && LexLe(b, a)
    ensures a == b
    decreases |a|
  {
    if |a| > 0 && |b| > 0 {
      LexLeAntisymmetric(a[1..], b[1..]);
      assert a == [a[0]] + a[1..] && b == [b[0]] + b[1..];
    }
  }
}

=== FILE: wrappers.dfy ===
/** Option and Result, the two failure-carrying shapes the rest of the model uses.
    A JavaScript `undefined`/`null` becomes `None`; a thrown error becomes `Failure(message)`. */
module Wrappers {

  datatype Option<+T> = None | Some(value: T) {

    /** The value, or `default` when there is none. */
    function GetOr(default: T): T {
      match this
      case Some(v) => v
      case None => default
    }
  }

  datatype Result<+R> = Success(value: R) | Failure(error: string) {

    predicate IsFailure() {
      Failure?
    }

    function PropagateFailure<U>(): Result<U>
      requires Failure?
    {
      Failure(error)
    }

    function Extract(): R
      requires Success?
    {
      value
    }
  }
}
